=== FILE: README.md ===
# Slemmings simulation core in Dafny

This project models the deterministic core of Slemmings, a Lemmings-style
browser game. Slemmings leave a spawn point, walk, fall, climb and dig
through destructible terrain, and the player assigns skills to get enough
of them to the exit before time runs out.

The model has three parts:

- **The agent state machine** (`engine/Slemming.ts`). Each tick a live agent
  does exactly one of three things:
  - it leaves through the exit;
  - its bomber fuse burns out and it explodes;
  - it runs the handler for its state.

  The handler states are falling/floating, walking, climbing, blocking,
  building, shrugging, digging, bashing and mining. Handlers read a terrain
  snapshot through `isSolid`. They return the terrain edits they request
  instead of calling back. Skill assignment is a guarded role change that
  reports whether it took effect.
- **The tick driver** (`components/GameCanvas.tsx`). It covers:
  - spawn cadence and the spawn quota;
  - the sweep over the agent list in creation order, which skips terminal
    agents and reports each exit and death;
  - pausing;
  - a frame of several ticks that all read one terrain snapshot while edits
    go to the live terrain;
  - picking the agent a click targets;
  - the geometry of the two terrain edits: a carved disk and a filled strip.
- **The game bookkeeping** (`App.tsx`). This part covers:
  - the skill-quota decrement;
  - the release-rate buttons;
  - the one-second timer;
  - the skill toggle, pause and nuke;
  - the win/loss predicates and the end-screen condition.

## Modules

| file | module | contents |
|---|---|---|
| `types.dfy` | `Types` | enums (including `Shrugging` and the `Walker` skill), records, game constants |
| `terrain.dfy` | `Terrain` | the occupancy grid, `IsSolid`, the carve and fill edits |
| `engine.dfy` | `Engine` | the agent record, `Update` with every handler, `Explode`, `ApplySkill` |
| `engine_props.dfy` | `EngineProps` | the agent invariant, one rule per handler, the builder's complete run |
| `app.dfy` | `App` | the reducers over the HUD game state |
| `game_canvas.dfy` | `GameCanvas` | spawn, sweep, tick, frame, click |
| `canvas_props.dfy` | `CanvasProps` | the bookkeeping invariant, spawn cadence, frozen terminal agents, snapshot independence, the quota finding |

### Modelling choices

- **Terrain.** The terrain is a boolean grid `seq<seq<bool>>` of 400 rows of
  640 cells. This replaces the canvas alpha channel.
  - A cell outside the stored grid reads as empty.
  - An edit covers a pixel when the pixel's centre lies inside the shape:
    - for a carve, the closed disk;
    - for a fill, the half-open rectangle [x-r, x+r) × [y-1, y+2).
  - This stands in for canvas anti-aliasing and the alpha > 128 threshold.
- **Numbers.** Positions and the fuse are exact reals, and grid lookups use
  `.Floor`.
- **Identity.** Agent ids are a creation counter, which equals the agent's
  index in the list. The blocker scan excludes the scanning agent by its
  index, which is what the source's object-identity test amounts to.
- **Callbacks.** The component reports through callbacks into the HUD
  state. Here those callbacks act directly on the `GameState` that `Sim`
  carries:
  - released (`components/GameCanvas.tsx:195`, `App.tsx:233`);
  - saved (`App.tsx:234`);
  - dead (`App.tsx:235`);
  - skill used (`App.tsx:113-121`).
- **The walker skill.** The engine's skill assignment has a walker case
  (`engine/Slemming.ts:298-307`), but the declared skill enumeration
  (`types.ts:2-11`) has no walker member. The skill bar draws one button per
  declared member (`App.tsx:248`), so the player can never arm the walker
  skill. The model keeps `Walker` so that the engine's case is covered; every
  statement about arming or charging it concerns a case the interface cannot
  reach.
- **Absent quotas.** No level gives the walker skill a quota, and, as above,
  no button can arm it, so this paragraph concerns an unreachable case. In the source,
  such a quota reads as "not a number", compares false with everything, and
  decrements to another "not a number". The model keeps the key absent. An
  absent key is never disabled, and `SkillUsed` leaves it absent. This
  matches every comparison the interface makes.

### Source behaviour the model keeps

- **Blocker scan.** The scan at `engine/Slemming.ts:140-147` does not filter
  out dead or exited agents. A blocker that later exploded still turns
  walkers round. `Engine.BlockerNear` quantifies over every other agent.
- **Skill assignment.** `applySkill` (`engine/Slemming.ts:263-327`) does not
  check the terminal flags itself. Only the click's target search excludes
  terminal agents.
- **`actionProgress`.** It is not reset on every state change:
  - a basher who meets air keeps its progress (`engine/Slemming.ts:236-238`);
  - a basher or miner who times out keeps it too (lines 243 and 255);
  - so does a walker who starts falling or climbing.

## Model

| member | source | states |
|---|---|---|
| Terrain.IsSolid | engine/Slemming.ts:83-92 | The lookup has three regions. Left of column 0, at or past the width, or above row 0, it is empty. In range and at row 398 or below, it is always solid. Otherwise it is exactly the stored cell at the floored coordinates. |
| Terrain.Apply | components/GameCanvas.tsx:99-118 | Grid dimensions are kept. Every covered cell becomes empty for a carve and solid for a fill. Every uncovered cell is unchanged. |
| Terrain.ApplyAll | components/GameCanvas.tsx:200 | Edits applied in request order keep the grid's dimensions and its well-formedness. |
| Terrain.ApplyAllConcat | components/GameCanvas.tsx:197-200 | Applying one batch of edits and then another gives the same grid as applying the two batches joined in that order, so edits requested agent by agent compose into one ordered list. |
| Terrain.SampleAfterEdit | components/GameCanvas.tsx:106-116 | Inside the painted shape a later sample reads the edit's value. Outside it, the sample is unchanged. |
| Terrain.FloorSurvivesEdits | engine/Slemming.ts:88 | No sequence of edits can open the floor: every in-range sample from row 398 down stays solid. |
| Terrain.CarveCentre | components/GameCanvas.tsx:106-110 | A carve centred on a pixel clears that pixel. It leaves untouched every pixel of the row more than r away. |
| Terrain.FillStrip | components/GameCanvas.tsx:111-115 | A fill of radius r at an integer point paints exactly columns [x-r, x+r) of rows y-1, y and y+1. |
| Engine.Flip | engine/Slemming.ts:143 | The direction is negated. |
| Engine.NewSlemming | engine/Slemming.ts:9-22 | A new agent has the given position and id. It faces right, is falling, has no skills, fall distance 0, no fuse, progress 0, and is neither dead nor exited. |
| Engine.BurnFuse | engine/Slemming.ts:42-44 | A lit fuse loses exactly 0.016. An unlit fuse stays unlit. Nothing else changes. |
| Engine.Update | engine/Slemming.ts:24-81 | A dead or exited agent is returned unchanged and requests no edit. Id and skills never change. At most one edit is requested. The agent is exited afterwards iff it already was, or it was alive, inside the exit box and not falling. An agent is never newly both dead and exited. |
| Engine.Dispatch | engine/Slemming.ts:51-80 | Whichever handler runs, id, skills, fuse and exit flag are unchanged, and at most one edit is requested. |
| Engine.Explode | engine/Slemming.ts:258-261 | The agent becomes dead and requests exactly one carve of radius 25 at its position. |
| Engine.SnapDistance | engine/Slemming.ts:109-112 | The lift is the first whole-pixel height at which the agent's point is empty or at or above the top edge (y ≤ 0). Every height below it is solid and strictly below the top edge (y > 0). |
| Engine.HandleFalling | engine/Slemming.ts:94-118 | Frame condition only: id, skills, fuse and exit flag are kept. The behaviour is stated by EngineProps.LandingRule and EngineProps.FreeFallRule. |
| Engine.BlockerNear | engine/Slemming.ts:140-147 | A blocker is near when some other agent of the list, dead and exited ones included, is blocking within 8 pixels across and 5 up or down. |
| Engine.StepHeight | engine/Slemming.ts:150-154 | The step is the first height from 0 to 6 at which the column ahead is empty, or 7 when it is solid all the way up. Every lower height is solid. |
| Engine.HandleWalking | engine/Slemming.ts:121-171 | Frame condition only: id, skills, fuse and exit flag are kept. The behaviour is stated by the four EngineProps.Walk lemmas. |
| Engine.HandleClimbing | engine/Slemming.ts:173-188 | Frame condition only. The behaviour is stated by EngineProps.ClimbingRule and EngineProps.ClimberNeverDies. |
| Engine.HandleBuilding | engine/Slemming.ts:190-205 | Frame condition and at most one edit. The behaviour is stated by EngineProps.BuildingRule and EngineProps.BuildFrom. |
| Engine.HandleShrugging | engine/Slemming.ts:207-213 | Frame condition only. The behaviour is stated by EngineProps.ShruggingRule. |
| Engine.HandleDigging | engine/Slemming.ts:215-229 | Frame condition and at most one edit. The behaviour is stated by EngineProps.DiggingRule. |
| Engine.HandleBashing | engine/Slemming.ts:231-244 | Frame condition and at most one edit. The behaviour is stated by EngineProps.BashingRule and EngineProps.ToolTimeoutRule. |
| Engine.HandleMining | engine/Slemming.ts:246-256 | Frame condition and at most one edit. The behaviour is stated by EngineProps.MiningRule and EngineProps.ToolTimeoutRule. |
| Engine.ApplySkill | engine/Slemming.ts:263-327 | A rejected assignment changes nothing. Position, direction, fall distance and flags never change. The rules per skill are: climber and floater always succeed and add themselves to the skill set; bomber succeeds iff no fuse is lit and lights a 5-second fuse; blocker, digger, basher and miner succeed iff the agent is walking; builder succeeds iff walking or shrugging; these state changes reset progress; walker succeeds iff not falling and resets state, progress and fuse. |
| EngineProps.NewSlemmingInv | engine/Slemming.ts:9-22 | A new agent satisfies the agent invariant: never both dead and exited, non-negative fall distance, a live agent's fuse positive, progress bounded in building, shrugging, bashing and mining. |
| EngineProps.HandlerPreservesInv | engine/Slemming.ts:51-80 | Every state handler keeps the agent invariant. |
| EngineProps.UpdatePreservesInv | engine/Slemming.ts:24-81 | A whole tick keeps the agent invariant. |
| EngineProps.ApplySkillPreservesInv | engine/Slemming.ts:263-327 | Skill assignment keeps the agent invariant. |
| EngineProps.ExitRule | engine/Slemming.ts:34-40 | A live agent in the exit box that is not falling becomes exited with no other change and no edit, even if its fuse would burn out. A falling agent never exits. |
| EngineProps.FuseRule | engine/Slemming.ts:42-49 | A lit fuse loses 0.016. When it reaches zero, the agent dies where it stands with exactly one carve of radius 25 and runs no handler. |
| EngineProps.LandingRule | engine/Slemming.ts:94-113 | The whole step, as one record equation. On a hit, a falling agent that fell more than 60 pixels dies and nothing else about it changes. Any other agent walks with fall distance 0, at the same x and direction, lifted by exactly the snap distance n: each of the n points passed on the way up is solid with y above 0, and the point it stops at is empty or has y at most 0. Only the fuse burns besides, and no edit is requested. |
| EngineProps.FreeFallRule | engine/Slemming.ts:114-118 | The whole step, as one record equation. With no hit, y and the fall distance both grow by 2 (1 when floating), and the agent is dead iff it is now below the world's height. State, x, direction and progress are kept, only the fuse burns besides, and no edit is requested. |
| EngineProps.FloaterSurvivesLanding | engine/Slemming.ts:103-117 | A floater can only die by dropping below the bottom of the world. |
| EngineProps.WalkOffEdge | engine/Slemming.ts:128-134 | The whole step, as one record equation. With no ground at any of the three probes 2 pixels down, a walker starts falling, or floating if it has the floater skill. Position, direction, fall distance and progress are kept, only the fuse burns besides, and no edit is requested. |
| EngineProps.WalkIntoBlocker | engine/Slemming.ts:139-147 | The whole step, as one record equation. A blocking agent elsewhere in the list within 8 pixels across and 5 up or down turns the walker round and moves it 3 pixels in its new direction. y, state, fall distance and progress are kept, only the fuse burns besides, and no edit is requested. |
| EngineProps.BlockerScanSkipsOnlySelf | engine/Slemming.ts:140-147 | The scan's result does not depend on the scanning agent's own entry, and a blocker that has since died or exited still counts. |
| EngineProps.WalkIntoWall | engine/Slemming.ts:150-170 | The whole step, as one record equation. When the column ahead is solid through all 7 heights, a climber starts climbing and anyone else turns round. Neither moves, everything else is kept, only the fuse burns besides, and no edit is requested. |
| EngineProps.WalkForward | engine/Slemming.ts:150-162 | The whole step, as one record equation. Otherwise the walker advances by 0.55 in its direction. Its new y is raised by exactly the step height n, where n is at most 6, the n pixels below it are solid and the one it stops at is empty; it then drops 1 more pixel exactly when the pixel below that is empty. State, direction, fall distance and progress are kept, only the fuse burns besides, and no edit is requested. |
| EngineProps.ClimbingRule | engine/Slemming.ts:173-188 | The whole step, as one record equation. With no wall ahead at its height or one pixel up, the climber goes 1 up and 4 on, and walks. Otherwise it climbs 1 pixel straight up. Direction, fall distance, progress and the flags are kept, only the fuse burns besides, and no edit is requested. |
| EngineProps.BlockingRule | engine/Slemming.ts:59-61 | A blocker stays put and requests no edit. Only its fuse burns. |
| EngineProps.ClimberNeverDies | engine/Slemming.ts:173-188 | The climbing handler's death branch is unreachable. Above row 0 nothing is solid, so a climber there always takes the reached-the-top branch. |
| EngineProps.BuildingRule | engine/Slemming.ts:190-205 | The whole step, as one record equation. On a tick whose progress p is a multiple of 20 the builder requests a fill of radius 5 eight pixels ahead and moves 4 on and 2 up; if p is past 240 it then shrugs with progress 0, else it keeps building with progress p. On other ticks only the progress becomes p. Direction, fall distance and the flags are kept, and only the fuse burns besides. |
| EngineProps.ShruggingRule | engine/Slemming.ts:207-213 | The whole step, as one record equation. Shrugging becomes walking with progress 0 exactly when the progress passes 120; otherwise only the progress goes up by 1. The agent never moves or dies, only the fuse burns besides, and no edit is requested. |
| EngineProps.DiggingRule | engine/Slemming.ts:215-229 | The whole step, as one record equation. Without ground 5 pixels below, the digger falls where it stands with progress 0. Otherwise progress goes up by 1; every 15th tick it carves radius 10 at 4 pixels below and sinks 3, and on other ticks it neither edits nor moves. Direction, fall distance and the flags are kept, and only the fuse burns besides. |
| EngineProps.ToolTimeoutRule | engine/Slemming.ts:243-255 | Bashers and miners walk again once progress passes 600, and the progress is not reset. A miner walks exactly then. |
| EngineProps.BashingRule | engine/Slemming.ts:231-244 | The whole step, as one record equation. Progress p goes up by 1 on every tick. Off every 10th tick the basher neither edits nor moves and keeps bashing iff p is at most 600. On every 10th tick, into air it walks without moving or editing; into ground it carves radius 12 six pixels ahead, moves 2, and keeps bashing iff p is at most 600. y, direction, fall distance and the flags are kept, and only the fuse burns besides. |
| EngineProps.MiningRule | engine/Slemming.ts:246-256 | The whole step, as one record equation. Progress p goes up by 1 on every tick and the miner keeps mining iff p is at most 600. Every 12th tick it carves radius 12 six pixels ahead and four down, and moves 2 on and 1 down; on other ticks it stays put and requests nothing. Direction, fall distance and the flags are kept, and only the fuse burns besides. |
| EngineProps.ApplySkillSettles | engine/Slemming.ts:263-327 | Re-applying a skill that took effect changes nothing more. It is accepted again iff the skill is climber, floater or walker. |
| EngineProps.BuildFrom | engine/Slemming.ts:190-205 | Left alone from any progress short of the limit, a builder ends shrugging after exactly 260 - p ticks. It has laid 13 - p/20 bricks, each a fill of radius 5, and has moved 4 pixels on and 2 up per brick. |
| EngineProps.BuilderLaysThirteenBricks | engine/Slemming.ts:190-205 | A new builder lays 13 bricks in 260 ticks. It ends 52 pixels further on and 26 pixels higher. |
| App.StartGame | App.tsx:123-137 | Starting a level gives playing status, not paused, no skill armed, zero counters, and the level's time limit, release rate and quotas. |
| App.SkillDisabled | App.tsx:251 | A skill button is disabled iff the skill has a quota and it is at most 0; a skill without a quota is never disabled. |
| App.SkillUsed | App.tsx:113-121 | Only the used skill's quota changes, by exactly -1, with no lower bound. The other quotas and all other fields are unchanged. |
| App.UseDisablesAtLastCharge | App.tsx:113-121 | Using a skill disables its button exactly when the last charge goes, never re-enables a disabled one, leaves a skill without a quota enabled, and does not touch the other buttons. |
| App.SelectSkill | App.tsx:248-252 | A disabled button does nothing. Otherwise, pressing the armed skill disarms it and pressing any other skill arms that one. No other field changes. |
| App.SelectSkillTwice | App.tsx:252 | Pressing the same enabled button twice restores the selection when nothing or that skill was armed. |
| App.RateUp | App.tsx:243 | Up adds 5 and caps at 99. |
| App.RateDown | App.tsx:245 | Down subtracts 5 and floors at 0. |
| App.RateStaysInRange | App.tsx:243-245 | A rate in [0, 99] stays in [0, 99] under either button. |
| App.RateRoundTrip | App.tsx:243-245 | Away from the bounds, up then down and down then up restore the rate. |
| App.SetReleaseRate | App.tsx:243-245 | Only the release rate changes: the up button gives RateUp of the old rate and the down button gives RateDown of it, and it stays in [0, 99]. |
| App.TimerTick | App.tsx:95-104 | The timer does nothing unless the game is playing and unpaused. In that case a positive clock loses exactly one second and the game stays playing, and a clock at or below zero is kept and the status becomes lost. |
| App.TimerRunsOut | App.tsx:97-101 | With t seconds left, n ≤ t ticks leave t - n seconds. Tick t + 1 loses the game with the clock at 0. |
| App.TimerNeverNegative | App.tsx:97-101 | The clock never goes below zero. |
| App.TogglePause | App.tsx:221 | The pause flag flips and nothing else changes. |
| App.Nuke | App.tsx:139-143 | A confirmed nuke sets the status to lost and changes nothing else. |
| App.OnExited | App.tsx:234 | An exit report adds exactly one to the saved count. |
| App.OnDied | App.tsx:235 | A death report adds exactly one to the dead count. |
| App.OnReleased | App.tsx:233 | The released count takes the reported value. |
| App.IsWin | App.tsx:166 | The level is won once at least the required number have been saved. |
| App.IsLoss | App.tsx:168 | The level is lost once more have died than the total less the required number, or the clock is at or below 0. |
| App.ShowsEndScreen | App.tsx:170 | The end screen shows on a win, or on a loss once every slemming has been released with too few saved. |
| App.OutcomeCases | App.tsx:166-170 | Saving the required number shows the end screen whatever else holds. Short of a win, the screen stays hidden while slemmings are still to be released or nothing is lost, and shows once all are out and the level is lost. |
| App.EndScreenNeedsWinOrFullRelease | App.tsx:166-170 | The end screen shows iff the level is won, or it is lost with every slemming released and too few saved. The status field plays no part. |
| GameCanvas.EnterLevel | components/GameCanvas.tsx:94-96 | Entering a level clears the agent list and both spawn counters, on the level's terrain. |
| GameCanvas.SpawnDelay | components/GameCanvas.tsx:184 | The delay is at least 10 and at least (105 - rate)·12/16, and it equals one of them. |
| GameCanvas.SpawnDue | components/GameCanvas.tsx:184-190 | A spawn is due when quota is left and the tick counter, after this tick's increment, has passed the delay for the current rate. |
| GameCanvas.SpawnStep | components/GameCanvas.tsx:184-196 | Without a due spawn only the tick counter advances. A due spawn needs quota left and a counter that has passed the delay, so at least 11 ticks since the last spawn. It appends one new agent 10 pixels above the spawn point, leaves the existing agents untouched, increments the spawn count, resets the counter and reports the release. |
| GameCanvas.Visit | components/GameCanvas.tsx:198-207 | A terminal agent is skipped with nothing changed. A live one is replaced by its update against the live list, and that update's edits are applied, in order, to the live terrain. No other agent changes, and only the saved and dead counters of the HUD state may move. |
| GameCanvas.Sweep | components/GameCanvas.tsx:198-207 | Each terminal agent is unchanged. Each live agent j is updated once, seeing agents before it already updated this tick and itself and later agents as they were. The live terrain ends as the old terrain with every live agent's edits applied in list order. Spawn fields and the other HUD fields are untouched. |
| GameCanvas.Tick | components/GameCanvas.tsx:179-207 | When a spawn is due, exactly one agent is appended, counted as released and updated in the same tick; spawnCount goes up by 1 and the tick counter restarts. Otherwise no agent is added and the tick counter goes up by 1. Exited and dead agents are unchanged, only the released, saved and dead HUD counters may move, and the live terrain receives the live agents' edits in list order. |
| GameCanvas.Ticks | components/GameCanvas.tsx:179-208 | Over any run of ticks the agent list grows by exactly the number of spawns, spawns never push the count past the level's total, and only the released, saved and dead HUD counters may change. |
| GameCanvas.TickCount | components/GameCanvas.tsx:179 | A speed of 0 runs one tick, a negative speed runs none, and a positive speed runs that many. |
| GameCanvas.Frame | components/GameCanvas.tsx:154-208 | A paused frame, or one at a speed that runs no tick, changes nothing at all. Any frame adds exactly one agent per spawn, never spawns past the level's total, and changes only the released, saved and dead HUD counters. |
| CanvasProps.FrameRepeatsTick | components/GameCanvas.tsx:175-208 | An unpaused frame is exactly TickCount(speed) ticks in a row, each reading the terrain as it was when the frame began while the edits go to the live terrain. |
| CanvasProps.FrameAtSpeedTwo | components/GameCanvas.tsx:175-208 | At speed 2 a frame is two ticks that both read the frame-start terrain; at speed 0 it is one tick. |
| GameCanvas.FindTarget | components/GameCanvas.tsx:135-138 | The result is the first live agent within 15 pixels on both axes, or none when no agent qualifies. |
| GameCanvas.Click | components/GameCanvas.tsx:128-152 | With no skill armed, no mouse position or no target, nothing changes. Otherwise the armed skill is offered to the target alone, and the quota is charged iff the agent accepted it. The quota is not checked. |
| GameCanvas.GuardedClick | components/GameCanvas.tsx:128-144 | This is the corrected click. An armed skill whose button is disabled is offered to no one. Otherwise it acts as Click. |
| CanvasProps.EnterLevelInv | components/GameCanvas.tsx:94-96 | A level entered with fresh HUD state satisfies the bookkeeping invariant: one agent per release, ids in creation order, every agent invariant, saved and dead equal to the exited and dead agents. |
| CanvasProps.SpawnStepInv | components/GameCanvas.tsx:190-196 | Spawning keeps the bookkeeping invariant and never exceeds the level's total. |
| CanvasProps.VisitInv | components/GameCanvas.tsx:198-207 | Visiting one agent keeps the invariant. An agent that turns terminal is reported exactly once, as exited if it exited and else as died. |
| CanvasProps.SweepInv | components/GameCanvas.tsx:198-207 | A whole sweep keeps the bookkeeping invariant. |
| CanvasProps.TicksInv | components/GameCanvas.tsx:179-208 | Any number of ticks keeps the bookkeeping invariant. |
| CanvasProps.FrameInv | components/GameCanvas.tsx:154-208 | Every frame, paused or not, keeps the bookkeeping invariant. |
| CanvasProps.ClickInv | components/GameCanvas.tsx:140-144 | A click keeps the bookkeeping invariant. |
| CanvasProps.CountersBounded | components/GameCanvas.tsx:190-206 | Under the invariant, saved + dead ≤ released ≤ total. |
| CanvasProps.WinExcludesDeathLoss | App.tsx:166-168 | A won level never has more deaths than the level allows. |
| CanvasProps.NoSpawnBeforeDelay | components/GameCanvas.tsx:184-190 | While the counter stays at or below the delay, ticks spawn nothing, and the counter advances by one per tick. |
| CanvasProps.SpawnWhenDelayPassed | components/GameCanvas.tsx:184-196 | With quota left, the first tick whose counter passes the delay spawns exactly one agent and resets the counter. |
| CanvasProps.SpawnDueWindow | components/GameCanvas.tsx:184-190 | Over rates 0 to 99: with no quota left no spawn is due; a due spawn needs 10 ticks since the last; 78 ticks always suffice; at rate 99 exactly 10 do. |
| CanvasProps.SpawnsAtLeastElevenApart | components/GameCanvas.tsx:184-190 | Whatever the rate, no spawn happens within 10 ticks of the last. |
| CanvasProps.QuotaExhausted | components/GameCanvas.tsx:190 | Once the level's total has spawned, no tick adds an agent. |
| CanvasProps.TerminalAgentsFrozen | components/GameCanvas.tsx:198-199 | Ticks never remove an agent and never change an agent that has exited or died. |
| CanvasProps.SweepIgnoresLiveTerrain | components/GameCanvas.tsx:198-200 | A sweep's agents and counters do not depend on the live terrain. |
| CanvasProps.TicksIgnoreLiveTerrain | components/GameCanvas.tsx:175-200 | Within a frame, agents and counters depend only on the snapshot the ticks read, never on the live terrain the edits go to. |
| CanvasProps.ClickOverdrawsQuota | components/GameCanvas.tsx:140-144 | Two clicks with the blocker armed at quota 1 drive the quota to -1. |
| CanvasProps.GuardedClickKeepsQuotas | components/GameCanvas.tsx:140-144 | With the quota check, no quota goes below zero, and each quota drops by at most one. |
| CanvasProps.GuardedClickInv | components/GameCanvas.tsx:140-144 | The corrected click keeps the bookkeeping invariant. |

## Left out

- **Rendering.** The model leaves out agent, exit, spawn and reticle
  drawing, their trigonometry, and the JSX/HUD markup. These are
  presentation only.
- **The canvas API.** Compositing, path anti-aliasing and the alpha > 128
  threshold are left out. An exact boolean grid with idealised
  pixel-centre coverage takes their place.
- **Level layout drawing and the level table.**
  `components/GameCanvas.tsx:34-93` and the table in `App.tsx` are content
  data. The terrain and the level are parameters of `EnterLevel` and
  `StartGame`.
- **Event-loop plumbing.** The animation-frame scheduling, React state and
  refs, the `setInterval` wall clock and the nuke confirmation dialog are
  left out. `TimerTick` is one firing of the interval, and `Nuke` is the
  confirmed case.
- **The advice and language-model services.** They are network and random
  input, unrelated to the simulation.
- **Random choices.** Agent ids come from a counter, and the level for
  `StartGame` is a parameter rather than a random pick.
- **IEEE rounding.** 0.016 and 0.55 are exact reals. Floating-point drift of
  the fuse and of walking positions is not reproduced.
- **UI tables.** The icon, colour and description tables are UI; only the
  numeric constants are kept.
- **The unblock branch.** `components/GameCanvas.tsx:145-150` is
  unreachable, because line 130 returns when no skill is armed.
- **Unused enum members.** `BOMBER_COUNTDOWN`, `DEAD` and `EXITED` are never
  taken. Death and exit are the two flags.
- **Mouse handling.** The mouse position is a parameter. The coordinate
  scaling of `handleMouseMove` (`components/GameCanvas.tsx:120-126`) is not
  modelled.
- **Missing canvas.** The early returns when a canvas or drawing context is
  missing (`components/GameCanvas.tsx:100-103, 161-166`) are environment
  failures and are not modelled.
- **Won status.** The `Won` status is never set by the code. Winning is only
  ever computed by `isWin`.
- Engine.HandleFalling: its own contract states only the fields it keeps
  (id, skills, fuse, exit flag). The full step of a falling or floating
  agent is stated, as one record equation per case, by EngineProps.LandingRule
  and EngineProps.FreeFallRule.
- Engine.HandleWalking: its own contract states only the fields it keeps. The
  full step of a walker is stated, one record equation per case, by
  EngineProps.WalkOffEdge, WalkIntoBlocker, WalkIntoWall and WalkForward.
- Engine.HandleClimbing: its own contract states only the fields it keeps. The
  full step is stated by EngineProps.ClimbingRule.
- Engine.HandleBuilding: its own contract states only the fields it keeps and
  that at most one edit is requested. The full step is stated by
  EngineProps.BuildingRule.
- Engine.HandleShrugging: its own contract states only the fields it keeps.
  The full step is stated by EngineProps.ShruggingRule.
- Engine.HandleDigging: its own contract states only the fields it keeps and
  that at most one edit is requested. The full step is stated by
  EngineProps.DiggingRule.
- Engine.HandleBashing: its own contract states only the fields it keeps and
  that at most one edit is requested. The full step is stated by
  EngineProps.BashingRule.
- Engine.HandleMining: its own contract states only the fields it keeps and
  that at most one edit is requested. The full step is stated by
  EngineProps.MiningRule.
- GameCanvas.TickCount: speeds are integers. The component is never given a
  speed, so it uses its default of 1. Fractional speeds are not modelled.
- EngineProps.BuildFrom: the run iterates the building handler alone. It
  says nothing about a builder that reaches the exit or whose fuse burns out
  during the run. `Update` gives those two priority over the handler.

## Findings

| source | as written | input that shows it | evidently intended | confidence | as-written member | corrected member |
|---|---|---|---|---|---|---|
| components/GameCanvas.tsx:140-144 | A click offers the armed skill to the target and charges the quota without checking it. Only the skill buttons are disabled at quota 0, and the armed skill stays armed. | Blocker quota 1, blocker armed, two walkers. Clicking the first leaves quota 0 and the button disabled. Clicking the second still turns it into a blocker, and the quota becomes -1. | An armed skill whose quota is 0 or less is offered to no one, so quotas never go negative. | not executed | CanvasProps.ClickOverdrawsQuota | CanvasProps.GuardedClickKeepsQuotas |

=== FILE: app.dfy ===
/** The game bookkeeping of the application shell: pure reducers over the
    HUD game state (skill quotas, release rate, countdown timer, skill
    selection, pause, start) and the win/loss predicates. */
module App {
  import opened Types

  /** The state a level starts in (the level itself is chosen elsewhere). */
  function StartGame(level: Level): (gs: GameState)
    ensures gs.gameStatus == Playing && !gs.isPaused && gs.activeSkill == None
    ensures gs.released == 0 && gs.saved == 0 && gs.dead == 0
    ensures gs.timeLeft == level.timeLimit && gs.releaseRate == level.spawnRate
    ensures gs.skillsLeft == level.skills
  {
    GameState(0, 0, 0, level.timeLimit, level.spawnRate, None, level.skills, false, Playing)
  }

  /** The skill button is disabled when its quota is zero or less. A skill
      with no quota entry is never disabled: its count reads as "not a
      number", which compares false with everything. */
  predicate SkillDisabled(gs: GameState, k: SkillType) {
    k in gs.skillsLeft && gs.skillsLeft[k] <= 0
  }

  /** A skill was used: its quota drops by one, with no lower bound. A skill
      with no quota entry keeps having none. */
  function SkillUsed(gs: GameState, k: SkillType): (r: GameState)
    ensures r.skillsLeft.Keys == gs.skillsLeft.Keys
    ensures k in gs.skillsLeft ==> r.skillsLeft[k] == gs.skillsLeft[k] - 1
    ensures forall k' :: k' in gs.skillsLeft && k' != k ==> r.skillsLeft[k'] == gs.skillsLeft[k']
    ensures r.(skillsLeft := gs.skillsLeft) == gs
  {
    if k in gs.skillsLeft then gs.(skillsLeft := gs.skillsLeft[k := gs.skillsLeft[k] - 1]) else gs
  }

  /** Pressing a skill button: a disabled button does nothing; otherwise the
      pressed skill is armed, or disarmed when it was the armed one. */
  function SelectSkill(gs: GameState, k: SkillType): (r: GameState)
    ensures SkillDisabled(gs, k) ==> r == gs
    ensures !SkillDisabled(gs, k) ==> (r.activeSkill == None <==> gs.activeSkill == Some(k))
    ensures !SkillDisabled(gs, k) && gs.activeSkill != Some(k) ==> r.activeSkill == Some(k)
    ensures r.activeSkill == None || r.activeSkill == Some(k) || r == gs
    ensures r.(activeSkill := gs.activeSkill) == gs
  {
    if SkillDisabled(gs, k) then gs
    else gs.(activeSkill := if gs.activeSkill == Some(k) then None else Some(k))
  }

  /** Pressing the same enabled button twice restores the selection when it
      was empty or already this skill. */
  lemma SelectSkillTwice(gs: GameState, k: SkillType)
    requires !SkillDisabled(gs, k)
    requires gs.activeSkill == None || gs.activeSkill == Some(k)
    ensures SelectSkill(SelectSkill(gs, k), k) == gs
  {
  }

  /** Release-rate buttons: five up capped at 99, five down floored at 0. */
  function RateUp(rate: int): (r: int)
    ensures r <= 99
    ensures rate <= 94 ==> r == rate + 5
    ensures rate > 94 ==> r == 99
  {
    if rate + 5 < 99 then rate + 5 else 99
  }

  function RateDown(rate: int): (r: int)
    ensures r >= 0
    ensures rate >= 5 ==> r == rate - 5
    ensures rate < 5 ==> r == 0
  {
    if rate - 5 > 0 then rate - 5 else 0
  }

  /** The rate stays within [0, 99] whichever button is pressed. */
  lemma RateStaysInRange(rate: int)
    requires 0 <= rate <= 99
    ensures 0 <= RateUp(rate) <= 99 && 0 <= RateDown(rate) <= 99
  {
  }

  /** Away from the bounds one press up and one press down cancel out. */
  lemma RateRoundTrip(rate: int)
    ensures 0 <= rate <= 94 ==> RateDown(RateUp(rate)) == rate
    ensures 5 <= rate <= 99 ==> RateUp(RateDown(rate)) == rate
  {
  }

  /** A press of the up or down release-rate button. */
  function SetReleaseRate(gs: GameState, up: bool): (r: GameState)
    ensures r.(releaseRate := gs.releaseRate) == gs
    ensures r.releaseRate == (if up then RateUp(gs.releaseRate) else RateDown(gs.releaseRate))
    ensures 0 <= gs.releaseRate <= 99 ==> 0 <= r.releaseRate <= 99
  {
    gs.(releaseRate := if up then RateUp(gs.releaseRate) else RateDown(gs.releaseRate))
  }

  /** The one-second timer: it only runs while playing and not paused; each
      tick takes a second off, and a tick that finds no time left loses the
      game instead. */
  function TimerTick(gs: GameState): (r: GameState)
    ensures gs.gameStatus != Playing || gs.isPaused ==> r == gs
    ensures r.(timeLeft := gs.timeLeft, gameStatus := gs.gameStatus) == gs
    ensures r.timeLeft < gs.timeLeft ==> r.timeLeft == gs.timeLeft - 1 && gs.timeLeft > 0
    ensures r.gameStatus != gs.gameStatus ==> r.gameStatus == Lost && gs.timeLeft <= 0
    ensures gs.gameStatus == Playing && !gs.isPaused && gs.timeLeft > 0 ==>
      r.timeLeft == gs.timeLeft - 1 && r.gameStatus == Playing
    ensures gs.gameStatus == Playing && !gs.isPaused && gs.timeLeft <= 0 ==>
      r.gameStatus == Lost && r.timeLeft == gs.timeLeft
  {
    if gs.gameStatus != Playing || gs.isPaused then gs
    else if gs.timeLeft <= 0 then gs.(gameStatus := Lost)
    else gs.(timeLeft := gs.timeLeft - 1)
  }

  function TimerTicks(gs: GameState, n: nat): (r: GameState)
    decreases n
  {
    if n == 0 then gs else TimerTicks(TimerTick(gs), n - 1)
  }

  /** An unpaused game with t seconds left is lost after exactly t + 1 timer
      ticks, with the clock at zero; before that it is still playing. */
  lemma {:induction false} TimerRunsOut(gs: GameState, n: nat)
    requires gs.gameStatus == Playing && !gs.isPaused && gs.timeLeft >= 0
    ensures n <= gs.timeLeft ==> TimerTicks(gs, n) == gs.(timeLeft := gs.timeLeft - n)
    ensures n == gs.timeLeft + 1 ==> TimerTicks(gs, n) == gs.(timeLeft := 0, gameStatus := Lost)
    decreases n
  {
    if n > 0 {
      if gs.timeLeft == 0 {
        assert TimerTicks(gs, n) == TimerTicks(gs.(gameStatus := Lost), n - 1);
        if n == 1 {
          assert TimerTicks(gs.(gameStatus := Lost), 0) == gs.(gameStatus := Lost);
        }
      } else {
        TimerRunsOut(gs.(timeLeft := gs.timeLeft - 1), n - 1);
      }
    }
  }

  /** The clock never goes below zero. */
  lemma TimerNeverNegative(gs: GameState)
    requires gs.timeLeft >= 0
    ensures TimerTick(gs).timeLeft >= 0
  {
  }

  function TogglePause(gs: GameState): (r: GameState)
    ensures r.isPaused != gs.isPaused && r.(isPaused := gs.isPaused) == gs
  {
    gs.(isPaused := !gs.isPaused)
  }

  /** The nuke button, once confirmed, marks the game lost. */
  function Nuke(gs: GameState): (r: GameState)
    ensures r.gameStatus == Lost && r.(gameStatus := gs.gameStatus) == gs
  {
    gs.(gameStatus := Lost)
  }

  /** Counter updates the simulation reports through. */
  function OnExited(gs: GameState): (r: GameState)
    ensures r.saved == gs.saved + 1 && r.(saved := gs.saved) == gs
  {
    gs.(saved := gs.saved + 1)
  }

  function OnDied(gs: GameState): (r: GameState)
    ensures r.dead == gs.dead + 1 && r.(dead := gs.dead) == gs
  {
    gs.(dead := gs.dead + 1)
  }

  function OnReleased(gs: GameState, released: int): (r: GameState)
    ensures r.released == released && r.(released := gs.released) == gs
  {
    gs.(released := released)
  }

  predicate IsWin(gs: GameState, level: Level) {
    gs.saved >= level.toSave
  }

  predicate IsLoss(gs: GameState, level: Level) {
    gs.dead > level.totalSlemmings - level.toSave || gs.timeLeft <= 0
  }

  /** The end screen shows on a win, or on a loss once every slemming has
      been released and not enough were saved. */
  predicate ShowsEndScreen(gs: GameState, level: Level) {
    IsWin(gs, level) || (IsLoss(gs, level) && gs.released >= level.totalSlemmings && gs.saved < level.toSave)
  }

  /** Using a skill disables its button exactly at the last charge and
      never re-enables it; a skill without a quota entry stays enabled, and
      the other buttons are unaffected. */
  lemma UseDisablesAtLastCharge(gs: GameState, k: SkillType)
    ensures k in gs.skillsLeft && gs.skillsLeft[k] == 1 ==>
      !SkillDisabled(gs, k) && SkillDisabled(SkillUsed(gs, k), k)
    ensures k in gs.skillsLeft && gs.skillsLeft[k] > 1 ==> !SkillDisabled(SkillUsed(gs, k), k)
    ensures SkillDisabled(gs, k) ==> SkillDisabled(SkillUsed(gs, k), k)
    ensures k !in gs.skillsLeft ==> !SkillDisabled(SkillUsed(gs, k), k)
    ensures forall k' :: k' != k ==> (SkillDisabled(SkillUsed(gs, k), k') <==> SkillDisabled(gs, k'))
  {
  }

  /** The outcome predicates together: saving the required number wins and
      shows the end screen whatever else happened; short of a win the screen
      stays hidden while slemmings are still to be released or nothing is
      lost, and shows once everyone is out and the level is lost. */
  lemma OutcomeCases(gs: GameState, level: Level)
    ensures gs.saved >= level.toSave ==> IsWin(gs, level) && ShowsEndScreen(gs, level)
    ensures !IsWin(gs, level) && gs.released < level.totalSlemmings ==> !ShowsEndScreen(gs, level)
    ensures !IsWin(gs, level) && IsLoss(gs, level) && gs.released >= level.totalSlemmings ==> ShowsEndScreen(gs, level)
    ensures !IsWin(gs, level) && !IsLoss(gs, level) ==> !ShowsEndScreen(gs, level)
  {
  }

  /** Neither a lost status nor a clock at zero ends the level while
      slemmings are still to be released and the level is not won: the
      end screen depends on the counters only. */
  lemma EndScreenNeedsWinOrFullRelease(gs: GameState, level: Level)
    ensures ShowsEndScreen(gs, level) <==>
      IsWin(gs, level) || (gs.released >= level.totalSlemmings && IsLoss(gs, level))
    ensures ShowsEndScreen(gs, level) == ShowsEndScreen(gs.(gameStatus := Lost), level)
  {
  }
}

=== FILE: canvas_props.dfy ===
/** Properties of the tick driver: the bookkeeping invariant that ties the
    HUD counters to the agent list, spawn cadence and quota, terminal agents
    staying frozen, the frame reading only its snapshot, the win/loss
    predicates never both holding for a death loss, and the quota finding. */
module CanvasProps {
  import opened Types
  import opened Terrain
  import opened Engine
  import opened EngineProps
  import App
  import opened GameCanvas

  /** How many agents of the list have exited. */
  function CountExited(agents: seq<Slemming>): (n: nat)
    decreases |agents|
  {
    if |agents| == 0 then 0
    else CountExited(agents[..|agents| - 1]) + (if agents[|agents| - 1].isExited then 1 else 0)
  }

  /** How many agents of the list have died (an exited agent is counted as
      saved, never as dead). */
  function CountDied(agents: seq<Slemming>): (n: nat)
    decreases |agents|
  {
    if |agents| == 0 then 0
    else CountDied(agents[..|agents| - 1]) + (if Died(agents[|agents| - 1]) then 1 else 0)
  }

  predicate Died(s: Slemming) {
    s.isDead && !s.isExited
  }

  /** Replacing one agent moves each count by the difference its two
      versions make. */
  lemma {:induction false} CountReplace(agents: seq<Slemming>, i: nat, b: Slemming)
    requires i < |agents|
    ensures CountExited(agents[i := b]) + (if agents[i].isExited then 1 else 0)
         == CountExited(agents) + (if b.isExited then 1 else 0)
    ensures CountDied(agents[i := b]) + (if Died(agents[i]) then 1 else 0)
         == CountDied(agents) + (if Died(b) then 1 else 0)
    decreases |agents|
  {
    var n := |agents| - 1;
    var s := agents[i := b];
    if i == n {
      assert s[..n] == agents[..n];
    } else {
      assert s[..n] == agents[..n][i := b];
      CountReplace(agents[..n], i, b);
    }
  }

  /** Appending an agent that has neither exited nor died leaves both
      counts as they were. */
  lemma CountAppendLive(agents: seq<Slemming>, b: Slemming)
    requires !b.isExited && !b.isDead
    ensures CountExited(agents + [b]) == CountExited(agents)
    ensures CountDied(agents + [b]) == CountDied(agents)
  {
    assert (agents + [b])[..|agents|] == agents;
  }

  /** No agent is counted both as saved and as dead. */
  lemma {:induction false} CountsBounded(agents: seq<Slemming>)
    ensures CountExited(agents) + CountDied(agents) <= |agents|
    decreases |agents|
  {
    if |agents| > 0 {
      CountsBounded(agents[..|agents| - 1]);
    }
  }

  /** The bookkeeping invariant of a running level: one agent per spawn,
      never more spawns than the level's total, ids equal to creation
      order, every agent satisfying the agent invariant, and the saved and
      dead counters equal to the number of exited and dead agents (so each
      exit and each death has been reported exactly once). */
  predicate SimInv(sim: Sim, level: Level) {
    && |sim.agents| == sim.spawnCount && sim.gs.released == sim.spawnCount
    && sim.spawnCount <= level.totalSlemmings
    && (forall j :: 0 <= j < |sim.agents| ==> sim.agents[j].id == j && Inv(sim.agents[j]))
    && sim.gs.saved == CountExited(sim.agents) && sim.gs.dead == CountDied(sim.agents)
  }

  /** Entering a level with fresh HUD state establishes the invariant. */
  lemma EnterLevelInv(terrain: Grid, level: Level)
    requires level.totalSlemmings >= 0
    ensures SimInv(EnterLevel(terrain, App.StartGame(level)), level)
  {
  }

  lemma SpawnStepInv(sim: Sim, level: Level)
    requires SimInv(sim, level)
    ensures SimInv(SpawnStep(sim, level), level)
  {
    if SpawnDue(sim, level) {
      var r := SpawnStep(sim, level);
      var b := NewSlemming(sim.spawnCount, level.spawnPos.x, level.spawnPos.y - 10.0);
      assert r.agents == sim.agents + [b];
      CountAppendLive(sim.agents, b);
      NewSlemmingInv(sim.spawnCount, level.spawnPos.x, level.spawnPos.y - 10.0);
    }
  }

  lemma VisitInv(sim: Sim, env: Env, i: nat, level: Level)
    requires SimInv(sim, level) && i < |sim.agents|
    ensures SimInv(Visit(sim, env, i), level)
  {
    var a := sim.agents[i];
    if !Terminal(a) {
      var b := Update(a, env, sim.agents, i).agent;
      UpdatePreservesInv(a, env, sim.agents, i);
      CountReplace(sim.agents, i, b);
      assert Visit(sim, env, i).agents == sim.agents[i := b];
    }
  }

  lemma {:induction false} SweepInv(sim: Sim, env: Env, i: nat, level: Level)
    requires SimInv(sim, level) && i <= |sim.agents|
    ensures SimInv(Sweep(sim, env, i), level)
    decreases |sim.agents| - i
  {
    if i < |sim.agents| {
      VisitInv(sim, env, i, level);
      SweepInv(Visit(sim, env, i), env, i + 1, level);
    }
  }

  lemma {:induction false} TicksInv(sim: Sim, level: Level, snapshots: seq<Grid>)
    requires SimInv(sim, level)
    ensures SimInv(Ticks(sim, level, snapshots), level)
    decreases |snapshots|
  {
    if |snapshots| > 0 {
      SpawnStepInv(sim, level);
      SweepInv(SpawnStep(sim, level), FrameEnv(snapshots[0], level), 0, level);
      TicksInv(Tick(sim, level, snapshots[0]), level, snapshots[1..]);
    }
  }

  /** Every frame, paused or not, keeps the bookkeeping invariant. */
  lemma FrameInv(sim: Sim, level: Level, speed: int)
    requires SimInv(sim, level)
    ensures SimInv(Frame(sim, level, speed), level)
  {
    if !sim.gs.isPaused {
      TicksInv(sim, level, seq(TickCount(speed), _ => sim.terrain));
    }
  }

  /** Reference reading of an unpaused frame: `n` ticks in a row, each one
      run on the result of the one before and all reading the same
      snapshot. */
  function RepeatTick(sim: Sim, level: Level, snapshot: Grid, n: nat): (r: Sim)
    decreases n
  {
    if n == 0 then sim else RepeatTick(Tick(sim, level, snapshot), level, snapshot, n - 1)
  }

  /** An unpaused frame at speed `speed` is exactly `TickCount(speed)` ticks
      in a row, each reading the terrain as it was when the frame began. */
  lemma {:induction false} FrameRepeatsTick(sim: Sim, level: Level, speed: int)
    requires !sim.gs.isPaused
    ensures Frame(sim, level, speed) == RepeatTick(sim, level, sim.terrain, TickCount(speed))
  {
    RepeatedSnapshot(sim, level, sim.terrain, seq(TickCount(speed), _ => sim.terrain));
  }

  lemma {:induction false} RepeatedSnapshot(sim: Sim, level: Level, g: Grid, snapshots: seq<Grid>)
    requires forall k :: 0 <= k < |snapshots| ==> snapshots[k] == g
    ensures Ticks(sim, level, snapshots) == RepeatTick(sim, level, g, |snapshots|)
    decreases |snapshots|
  {
    if |snapshots| > 0 {
      var next := Tick(sim, level, g);
      assert Ticks(sim, level, snapshots) == Ticks(next, level, snapshots[1..]);
      assert RepeatTick(sim, level, g, |snapshots|) == RepeatTick(next, level, g, |snapshots[1..]|);
      RepeatedSnapshot(next, level, g, snapshots[1..]);
    }
  }

  /** A frame at double speed runs two ticks that both read the terrain as
      it was at the start of the frame, even when the first tick edited the
      live terrain; speed 0 runs a single tick. */
  lemma FrameAtSpeedTwo(sim: Sim, level: Level)
    requires !sim.gs.isPaused
    ensures Frame(sim, level, 2) == Tick(Tick(sim, level, sim.terrain), level, sim.terrain)
    ensures Frame(sim, level, 0) == Tick(sim, level, sim.terrain)
  {
    var g := sim.terrain;
    var once := Tick(sim, level, g);
    FrameRepeatsTick(sim, level, 2);
    assert RepeatTick(sim, level, g, 2) == RepeatTick(once, level, g, 1);
    assert RepeatTick(once, level, g, 1) == RepeatTick(Tick(once, level, g), level, g, 0);
    FrameRepeatsTick(sim, level, 0);
    assert RepeatTick(sim, level, g, 1) == RepeatTick(once, level, g, 0);
  }

  /** A click keeps the invariant: skills never kill, save or renumber an agent. */
  lemma ClickInv(sim: Sim, level: Level, mouse: Option<Point>)
    requires SimInv(sim, level)
    ensures SimInv(Click(sim, mouse), level)
  {
    match ClickTarget(sim, mouse)
    case None =>
    case Some(j) =>
      var k := sim.gs.activeSkill.value;
      var res := ApplySkill(sim.agents[j], k);
      ApplySkillPreservesInv(sim.agents[j], k);
      CountReplace(sim.agents, j, res.agent);
  }

  /** Under the invariant the counters are bounded by the release count:
      saved + dead <= released <= total. */
  lemma CountersBounded(sim: Sim, level: Level)
    requires SimInv(sim, level)
    ensures sim.gs.saved + sim.gs.dead <= sim.gs.released <= level.totalSlemmings
  {
    CountsBounded(sim.agents);
  }

  /** A won level cannot also be lost on deaths: enough saved leaves too few
      agents for the death count to pass the allowance. */
  lemma WinExcludesDeathLoss(sim: Sim, level: Level)
    requires SimInv(sim, level)
    ensures App.IsWin(sim.gs, level) ==> sim.gs.dead <= level.totalSlemmings - level.toSave
  {
    CountersBounded(sim, level);
  }

  /** While the tick counter stays at or below the spawn delay, no agent is
      spawned; the counter just advances once per tick. */
  lemma {:induction false} NoSpawnBeforeDelay(sim: Sim, level: Level, snapshots: seq<Grid>)
    requires (sim.sinceSpawn + |snapshots|) as real <= SpawnDelay(sim.gs.releaseRate)
    ensures var r := Ticks(sim, level, snapshots);
      |r.agents| == |sim.agents| && r.spawnCount == sim.spawnCount &&
      r.sinceSpawn == sim.sinceSpawn + |snapshots| && r.gs.releaseRate == sim.gs.releaseRate
    decreases |snapshots|
  {
    if |snapshots| > 0 {
      NoSpawnBeforeDelay(Tick(sim, level, snapshots[0]), level, snapshots[1..]);
    }
  }

  /** With quota left, the first tick whose counter passes the delay spawns
      exactly one agent and restarts the counter. */
  lemma {:induction false} SpawnWhenDelayPassed(sim: Sim, level: Level, snapshots: seq<Grid>)
    requires sim.spawnCount < level.totalSlemmings && |snapshots| >= 1
    requires (sim.sinceSpawn + |snapshots| - 1) as real <= SpawnDelay(sim.gs.releaseRate)
    requires (sim.sinceSpawn + |snapshots|) as real > SpawnDelay(sim.gs.releaseRate)
    ensures var r := Ticks(sim, level, snapshots);
      |r.agents| == |sim.agents| + 1 && r.spawnCount == sim.spawnCount + 1 && r.sinceSpawn == 0
    decreases |snapshots|
  {
    var t := Tick(sim, level, snapshots[0]);
    if |snapshots| == 1 {
      assert Ticks(t, level, snapshots[1..]) == t;
    } else {
      SpawnWhenDelayPassed(t, level, snapshots[1..]);
    }
  }

  /** The spawn window over the rates the buttons allow: at the fastest rate
      a spawn is due once 10 ticks have passed since the last one, and at
      any rate it is due at the latest once 78 have; with no quota left it
      is never due. */
  lemma SpawnDueWindow(sim: Sim, level: Level)
    requires 0 <= sim.gs.releaseRate <= 99
    ensures sim.spawnCount >= level.totalSlemmings ==> !SpawnDue(sim, level)
    ensures SpawnDue(sim, level) ==> sim.sinceSpawn >= 10
    ensures sim.spawnCount < level.totalSlemmings && sim.sinceSpawn >= 78 ==> SpawnDue(sim, level)
    ensures sim.gs.releaseRate == 99 ==>
      (SpawnDue(sim, level) <==> sim.spawnCount < level.totalSlemmings && sim.sinceSpawn >= 10)
  {
  }

  /** Two spawns are always more than ten ticks apart, whatever the rate. */
  lemma SpawnsAtLeastElevenApart(sim: Sim, level: Level, snapshots: seq<Grid>)
    requires sim.sinceSpawn + |snapshots| <= 10
    ensures Ticks(sim, level, snapshots).spawnCount == sim.spawnCount
  {
    NoSpawnBeforeDelay(sim, level, snapshots);
  }

  /** Once the level's total has been spawned, ticks add no agent. */
  lemma {:induction false} QuotaExhausted(sim: Sim, level: Level, snapshots: seq<Grid>)
    requires sim.spawnCount >= level.totalSlemmings
    ensures var r := Ticks(sim, level, snapshots);
      |r.agents| == |sim.agents| && r.spawnCount == sim.spawnCount
    decreases |snapshots|
  {
    if |snapshots| > 0 {
      QuotaExhausted(Tick(sim, level, snapshots[0]), level, snapshots[1..]);
    }
  }

  /** An agent that has exited or died is never changed again by a tick,
      and agents are never removed. */
  lemma {:induction false} TerminalAgentsFrozen(sim: Sim, level: Level, snapshots: seq<Grid>)
    ensures var r := Ticks(sim, level, snapshots);
      |r.agents| >= |sim.agents| &&
      forall j :: 0 <= j < |sim.agents| && Terminal(sim.agents[j]) ==> r.agents[j] == sim.agents[j]
    decreases |snapshots|
  {
    if |snapshots| > 0 {
      var s := SpawnStep(sim, level);
      var t := Tick(sim, level, snapshots[0]);
      assert forall j :: 0 <= j < |sim.agents| ==> s.agents[j] == sim.agents[j];
      TerminalAgentsFrozen(t, level, snapshots[1..]);
    }
  }

  /** Two states that differ only in their live terrain. */
  predicate SameButTerrain(a: Sim, b: Sim) {
    a.(terrain := b.terrain) == b
  }

  /** A visit reads the frame's snapshot, never the live terrain. */
  lemma VisitIgnoresLiveTerrain(a: Sim, b: Sim, env: Env, i: nat)
    requires SameButTerrain(a, b) && i < |a.agents|
    ensures SameButTerrain(Visit(a, env, i), Visit(b, env, i))
  {
  }

  lemma {:induction false} SweepIgnoresLiveTerrain(a: Sim, b: Sim, env: Env, i: nat)
    requires SameButTerrain(a, b) && i <= |a.agents|
    ensures SameButTerrain(Sweep(a, env, i), Sweep(b, env, i))
    decreases |a.agents| - i
  {
    if i < |a.agents| {
      VisitIgnoresLiveTerrain(a, b, env, i);
      SweepUnfolds(a, env, i);
      SweepUnfolds(b, env, i);
      SweepIgnoresLiveTerrain(Visit(a, env, i), Visit(b, env, i), env, i + 1);
    }
  }

  /** Within a frame the agents and counters depend only on the snapshots
      the ticks read, never on the live terrain the edits go to. */
  lemma {:induction false} TicksIgnoreLiveTerrain(a: Sim, b: Sim, level: Level, snapshots: seq<Grid>)
    requires SameButTerrain(a, b)
    ensures SameButTerrain(Ticks(a, level, snapshots), Ticks(b, level, snapshots))
    decreases |snapshots|
  {
    if |snapshots| > 0 {
      SweepIgnoresLiveTerrain(SpawnStep(a, level), SpawnStep(b, level), FrameEnv(snapshots[0], level), 0);
      TicksIgnoreLiveTerrain(Tick(a, level, snapshots[0]), Tick(b, level, snapshots[0]), level, snapshots[1..]);
    }
  }

  /** Every skill quota present is at least zero. */
  predicate QuotasNonNegative(gs: GameState) {
    forall k :: k in gs.skillsLeft ==> gs.skillsLeft[k] >= 0
  }

  /** As written, a click charges an armed skill whose quota has run out.
      With one blocker left, the player arms the blocker while its button is
      enabled and clicks two walkers in turn: the second click is still
      honoured, although the button went disabled after the first, and the
      quota ends at -1. */
  lemma ClickOverdrawsQuota()
    ensures var a := NewSlemming(0, 100.0, 100.0).(state := Walking);
      var b := NewSlemming(1, 200.0, 100.0).(state := Walking);
      var gs := App.SelectSkill(GameState(2, 0, 0, 60, 50, None, map[Blocker := 1], false, Playing), Blocker);
      var once := Click(Sim([a, b], [], 2, 0, gs), Some(Point(100.0, 100.0)));
      var twice := Click(once, Some(Point(200.0, 100.0)));
      && QuotasNonNegative(gs) && gs.activeSkill == Some(Blocker)
      && once.gs.skillsLeft[Blocker] == 0 && App.SkillDisabled(once.gs, Blocker)
      && twice.gs.skillsLeft[Blocker] == -1 && twice.agents[1].state == Blocking
  {
    var a := NewSlemming(0, 100.0, 100.0).(state := Walking);
    var b := NewSlemming(1, 200.0, 100.0).(state := Walking);
    var gs := App.SelectSkill(GameState(2, 0, 0, 60, 50, None, map[Blocker := 1], false, Playing), Blocker);
    var sim := Sim([a, b], [], 2, 0, gs);
    assert Targetable(a, Point(100.0, 100.0));
    assert ClickTarget(sim, Some(Point(100.0, 100.0))) == Some(0);
    var once := Click(sim, Some(Point(100.0, 100.0)));
    assert once.agents == [a.(state := Blocking), b];
    assert !Targetable(once.agents[0], Point(200.0, 100.0));
    assert Targetable(once.agents[1], Point(200.0, 100.0));
    assert ClickTarget(once, Some(Point(200.0, 100.0))) == Some(1);
  }

  /** With the quota check, no click drives a quota below zero, and a click
      that assigns a skill with quota left charges exactly one use. */
  lemma GuardedClickKeepsQuotas(sim: Sim, mouse: Option<Point>)
    requires QuotasNonNegative(sim.gs)
    ensures QuotasNonNegative(GuardedClick(sim, mouse).gs)
    ensures var r := GuardedClick(sim, mouse);
      forall k :: k in sim.gs.skillsLeft ==>
        k in r.gs.skillsLeft && sim.gs.skillsLeft[k] - 1 <= r.gs.skillsLeft[k] <= sim.gs.skillsLeft[k]
  {
    if sim.gs.activeSkill.Some? && !App.SkillDisabled(sim.gs, sim.gs.activeSkill.value) {
      var k := sim.gs.activeSkill.value;
      assert k in sim.gs.skillsLeft ==> sim.gs.skillsLeft[k] >= 1;
    }
  }

  /** The corrected click keeps the bookkeeping invariant as well. */
  lemma GuardedClickInv(sim: Sim, level: Level, mouse: Option<Point>)
    requires SimInv(sim, level)
    ensures SimInv(GuardedClick(sim, mouse), level)
  {
    ClickInv(sim, level, mouse);
  }
}

=== FILE: engine.dfy ===
/** The per-agent state machine: one slemming, its per-tick update and its
    skill assignment. An update reads a terrain snapshot and the live list of
    agents and returns the new agent together with the terrain edits it
    requested, in request order. */
module Engine {
  import opened Types
  import opened Terrain

  /** Horizontal facing: +1 to the right, -1 to the left. */
  type Direction = d: int | d == 1 || d == -1 witness 1

  function Flip(d: Direction): (e: Direction)
    ensures e as int == -(d as int)
  {
    if d == 1 then -1 else 1
  }

  /** One agent. `id` is a creation counter; `countdown` is the bomber fuse
      in seconds (None when inactive); `actionProgress` counts ticks spent in
      the current timed state. */
  datatype Slemming = Slemming(
    id: nat,
    x: real,
    y: real,
    direction: Direction,
    state: SlemmingState,
    skills: set<SkillType>,
    fallDistance: real,
    countdown: Option<real>,
    actionProgress: nat,
    isDead: bool,
    isExited: bool)

  /** What one call to `Update` produces: the agent afterwards and the
      terrain edits it requested. */
  datatype Step = Step(agent: Slemming, edits: seq<Edit>)

  /** What the agent reads besides itself: the terrain snapshot, the world
      size and the level's exit point. */
  datatype Env = Env(terrain: Grid, width: int, height: int, exitPos: Point)

  /** Result of a skill assignment: whether it took effect, and the agent. */
  datatype SkillResult = SkillResult(applied: bool, agent: Slemming)

  /** Seconds a tick takes off the bomber fuse. */
  const FuseTick: real := 0.016
  /** Seconds on a freshly lit bomber fuse. */
  const FuseLength: real := 5.0
  const ExplosionRadius: real := 25.0
  /** Highest ledge a walker steps onto. */
  const MaxStep: nat := 6
  /** Builders lay a brick every `BrickInterval` ticks and stop once their
      progress exceeds `BrickInterval * 12`. */
  const BrickInterval: nat := 20
  const BuildLimit: nat := 240
  const ShrugTicks: nat := 120
  const DigInterval: nat := 15
  const BashInterval: nat := 10
  const MineInterval: nat := 12
  /** Bashers and miners give up once their progress exceeds this. */
  const ToolTimeout: nat := 600

  /** A freshly created agent: facing right, falling, no skills. */
  function NewSlemming(id: nat, x: real, y: real): (s: Slemming)
    ensures s.id == id && s.x == x && s.y == y
    ensures s.direction == 1 && s.state == Falling && s.skills == {}
    ensures s.fallDistance == 0.0 && s.countdown == None && s.actionProgress == 0
    ensures !s.isDead && !s.isExited
  {
    Slemming(id, x, y, 1, Falling, {}, 0.0, None, 0, false, false)
  }

  predicate Terminal(s: Slemming) {
    s.isDead || s.isExited
  }

  predicate Solid(env: Env, x: real, y: real) {
    IsSolid(env.terrain, env.width, x, y)
  }

  /** Inside the rectangular tolerance box around the exit. */
  predicate NearExit(s: Slemming, exit: Point) {
    Abs(s.x - exit.x) < 10.0 && Abs(s.y - exit.y) < 15.0
  }

  /** The agent leaves through the exit this tick. */
  predicate Exits(s: Slemming, env: Env) {
    NearExit(s, env.exitPos) && s.state != Falling
  }

  /** The fuse reaches zero this tick. */
  predicate FuseBurnsOut(s: Slemming) {
    s.countdown.Some? && s.countdown.value - FuseTick <= 0.0
  }

  /** A live agent that neither exits nor explodes runs its state handler. */
  predicate RunsHandler(s: Slemming, env: Env) {
    !Terminal(s) && !Exits(s, env) && !FuseBurnsOut(s)
  }

  /** The agent with one tick taken off its fuse, if it has one. */
  function BurnFuse(s: Slemming): (s': Slemming)
    ensures s'.countdown.Some? <==> s.countdown.Some?
    ensures s.countdown.Some? ==> s'.countdown.value == s.countdown.value - FuseTick
    ensures s'.(countdown := s.countdown) == s
  {
    match s.countdown
    case None => s
    case Some(c) => s.(countdown := Some(c - FuseTick))
  }

  /** One tick of one agent. `peers` is the live agent list in which this
      agent sits at index `self`; it is read only by the walking handler's
      blocker scan. */
  function Update(s: Slemming, env: Env, peers: seq<Slemming>, self: int): (r: Step)
    ensures Terminal(s) ==> r == Step(s, [])
    ensures r.agent.id == s.id && r.agent.skills == s.skills
    ensures |r.edits| <= 1
    ensures r.agent.isExited <==> s.isExited || (!s.isDead && Exits(s, env))
    ensures r.agent.isDead && r.agent.isExited ==> s.isDead && s.isExited
  {
    if Terminal(s) then Step(s, [])
    else if Exits(s, env) then Step(s.(isExited := true), [])
    else if FuseBurnsOut(s) then Explode(BurnFuse(s))
    else Dispatch(BurnFuse(s), env, peers, self)
  }

  /** A state handler leaves identity, skills, fuse and the exit flag alone. */
  predicate Keeps(s: Slemming, s': Slemming) {
    s'.id == s.id && s'.skills == s.skills && s'.countdown == s.countdown && s'.isExited == s.isExited
  }

  /** Runs the handler of the agent's current state. */
  function Dispatch(s: Slemming, env: Env, peers: seq<Slemming>, self: int): (r: Step)
    ensures Keeps(s, r.agent)
    ensures |r.edits| <= 1
  {
    match s.state
    case Falling => Step(HandleFalling(s, env), [])
    case Floating => Step(HandleFalling(s, env), [])
    case Walking => Step(HandleWalking(s, env, peers, self), [])
    case Blocking => Step(s, [])
    case Building => HandleBuilding(s)
    case Shrugging => Step(HandleShrugging(s), [])
    case Digging => HandleDigging(s, env)
    case Bashing => HandleBashing(s, env)
    case Mining => HandleMining(s)
    case Climbing => Step(HandleClimbing(s, env), [])
  }

  /** The fuse has burnt out: carve a crater around the agent and kill it. */
  function Explode(s: Slemming): (r: Step)
    ensures r.agent == s.(isDead := true)
    ensures r.edits == [Edit(s.x, s.y, ExplosionRadius, true)]
  {
    Step(s.(isDead := true), [Edit(s.x, s.y, ExplosionRadius, true)])
  }

  function FallSpeed(s: Slemming): (speed: real) {
    if s.state == Floating then 1.0 else 2.0
  }

  /** Ground under the feet at height `y`: any of the three probes x-2, x, x+2. */
  predicate GroundAt(env: Env, x: real, y: real) {
    Solid(env, x, y) || Solid(env, x - 2.0, y) || Solid(env, x + 2.0, y)
  }

  /** The height `n` whole pixels above `y`. */
  function Raised(y: real, n: int): (h: real) {
    y - n as real
  }

  /** How many whole pixels a landing agent is lifted, counting from `k`:
      it rises while its position is solid and below the top edge, and stops
      at the first position that is empty or at or above the top edge
      (y <= 0). */
  function SnapDistance(env: Env, x: real, y: real, k: nat): (n: nat)
    ensures k <= n
    ensures forall j: nat :: k <= j < n ==> Solid(env, x, Raised(y, j)) && Raised(y, j) > 0.0
    ensures !Solid(env, x, Raised(y, n)) || Raised(y, n) <= 0.0
    decreases y.Floor - k
  {
    if Solid(env, x, Raised(y, k)) && Raised(y, k) > 0.0 then SnapDistance(env, x, y, k + 1) else k
  }

  function HandleFalling(s: Slemming, env: Env): (s': Slemming)
    ensures Keeps(s, s')
  {
    var speed := FallSpeed(s);
    var nextY := s.y + speed;
    if GroundAt(env, s.x, nextY) then
      if s.fallDistance > MaxFallDistance && s.state != Floating then s.(isDead := true)
      else s.(state := Walking, fallDistance := 0.0, y := Raised(s.y, SnapDistance(env, s.x, s.y, 0)))
    else
      var s1 := s.(y := nextY, fallDistance := s.fallDistance + speed);
      if nextY > env.height as real then s1.(isDead := true) else s1
  }

  /** Some other agent of the list (terminal ones included) is blocking
      within 8 pixels horizontally and 5 vertically of (x, y). */
  predicate BlockerNear(peers: seq<Slemming>, self: int, x: real, y: real) {
    exists j :: 0 <= j < |peers| && j != self && peers[j].state == Blocking
      && Abs(peers[j].x - x) < 8.0 && Abs(peers[j].y - y) < 5.0
  }

  /** Height of the step in front of a walker: counting up from `k`, the
      first height at which column `x` is empty, or 7 when it is solid all
      the way up to `MaxStep`. */
  function StepHeight(env: Env, x: real, y: real, k: nat): (n: nat)
    requires k <= MaxStep + 1
    ensures k <= n <= MaxStep + 1
    ensures forall j: nat :: k <= j < n ==> Solid(env, x, Raised(y, j))
    ensures n <= MaxStep ==> !Solid(env, x, Raised(y, n))
    decreases MaxStep + 1 - k
  {
    if k <= MaxStep && Solid(env, x, Raised(y, k)) then StepHeight(env, x, y, k + 1) else k
  }

  function HandleWalking(s: Slemming, env: Env, peers: seq<Slemming>, self: int): (s': Slemming)
    ensures Keeps(s, s')
  {
    if !GroundAt(env, s.x, s.y + 2.0) then
      s.(state := if Floater in s.skills then Floating else Falling)
    else if BlockerNear(peers, self, s.x, s.y) then
      s.(direction := Flip(s.direction), x := s.x - s.direction as real * 3.0)
    else
      var nextX := s.x + s.direction as real * WalkSpeed;
      var up := StepHeight(env, nextX, s.y, 0);
      if up <= MaxStep then
        var y1 := Raised(s.y, up);
        s.(x := nextX, y := if Solid(env, nextX, y1 + 1.0) then y1 else y1 + 1.0)
      else if Climber in s.skills then s.(state := Climbing)
      else s.(direction := Flip(s.direction))
  }

  function HandleClimbing(s: Slemming, env: Env): (s': Slemming)
    ensures Keeps(s, s')
  {
    var nextY := s.y - 1.0;
    var aheadX := s.x + s.direction as real * 3.0;
    if !Solid(env, aheadX, nextY) && !Solid(env, aheadX, s.y) then
      s.(y := nextY, x := s.x + s.direction as real * 4.0, state := Walking)
    else if s.y < 0.0 then s.(isDead := true)
    else s.(y := nextY)
  }

  function HandleBuilding(s: Slemming): (r: Step)
    ensures Keeps(s, r.agent) && |r.edits| <= 1
  {
    var p := s.actionProgress + 1;
    if p % BrickInterval == 0 then
      var brick := Edit(s.x + s.direction as real * 8.0, s.y, 5.0, false);
      var s1 := s.(actionProgress := p, x := s.x + s.direction as real * 4.0, y := s.y - 2.0);
      Step(if p > BuildLimit then s1.(state := Shrugging, actionProgress := 0) else s1, [brick])
    else Step(s.(actionProgress := p), [])
  }

  function HandleShrugging(s: Slemming): (s': Slemming)
    ensures Keeps(s, s')
  {
    var p := s.actionProgress + 1;
    if p > ShrugTicks then s.(state := Walking, actionProgress := 0) else s.(actionProgress := p)
  }

  function HandleDigging(s: Slemming, env: Env): (r: Step)
    ensures Keeps(s, r.agent) && |r.edits| <= 1
  {
    var p := s.actionProgress + 1;
    if !Solid(env, s.x, s.y + 5.0) then Step(s.(state := Falling, actionProgress := 0), [])
    else if p % DigInterval == 0 then
      Step(s.(actionProgress := p, y := s.y + 3.0), [Edit(s.x, s.y + 4.0, 10.0, true)])
    else Step(s.(actionProgress := p), [])
  }

  /** Gives up a basher or miner whose progress has run past the timeout. */
  function TimeOut(s: Slemming): (s': Slemming) {
    if s.actionProgress > ToolTimeout then s.(state := Walking) else s
  }

  function HandleBashing(s: Slemming, env: Env): (r: Step)
    ensures Keeps(s, r.agent) && |r.edits| <= 1
  {
    var p := s.actionProgress + 1;
    if p % BashInterval == 0 then
      var checkX := s.x + s.direction as real * 6.0;
      if !Solid(env, checkX, s.y) then Step(s.(actionProgress := p, state := Walking), [])
      else Step(TimeOut(s.(actionProgress := p, x := s.x + s.direction as real * 2.0)),
                [Edit(checkX, s.y - 2.0, 12.0, true)])
    else Step(TimeOut(s.(actionProgress := p)), [])
  }

  function HandleMining(s: Slemming): (r: Step)
    ensures Keeps(s, r.agent) && |r.edits| <= 1
  {
    var p := s.actionProgress + 1;
    if p % MineInterval == 0 then
      var cut := Edit(s.x + s.direction as real * 6.0, s.y + 4.0, 12.0, true);
      Step(TimeOut(s.(actionProgress := p, x := s.x + s.direction as real * 2.0, y := s.y + 1.0)), [cut])
    else Step(TimeOut(s.(actionProgress := p)), [])
  }

  /** Skills that put the agent into a timed state from `Walking`. */
  function ToolState(k: SkillType): (st: Option<SlemmingState>) {
    match k
    case Digger => Some(Digging)
    case Basher => Some(Bashing)
    case Miner => Some(Mining)
    case _ => None
  }

  /** Attempts to assign a skill; a rejected attempt changes nothing. The
      terminal flags are not consulted: callers only offer live agents. */
  function ApplySkill(s: Slemming, k: SkillType): (r: SkillResult)
    ensures !r.applied ==> r.agent == s
    ensures r.agent.(state := s.state, skills := s.skills, countdown := s.countdown,
                     actionProgress := s.actionProgress) == s
    ensures k == Climber || k == Floater ==> r.applied && r.agent == s.(skills := s.skills + {k})
    ensures k == Bomber ==> (r.applied <==> s.countdown == None)
    ensures k == Bomber && r.applied ==> r.agent == s.(countdown := Some(FuseLength))
    ensures k == Blocker ==> (r.applied <==> s.state == Walking)
    ensures k == Blocker && r.applied ==> r.agent == s.(state := Blocking)
    ensures k == Builder ==> (r.applied <==> s.state == Walking || s.state == Shrugging)
    ensures k == Builder && r.applied ==> r.agent == s.(state := Building, actionProgress := 0)
    ensures ToolState(k).Some? ==> (r.applied <==> s.state == Walking)
    ensures ToolState(k).Some? && r.applied ==> r.agent == s.(state := ToolState(k).value, actionProgress := 0)
    ensures k == Walker ==> (r.applied <==> s.state != Falling)
    ensures k == Walker && r.applied ==> r.agent == s.(state := Walking, actionProgress := 0, countdown := None)
  {
    match k
    case Climber => SkillResult(true, s.(skills := s.skills + {Climber}))
    case Floater => SkillResult(true, s.(skills := s.skills + {Floater}))
    case Bomber =>
      if s.countdown == None then SkillResult(true, s.(countdown := Some(FuseLength)))
      else SkillResult(false, s)
    case Blocker =>
      if s.state == Walking then SkillResult(true, s.(state := Blocking))
      else SkillResult(false, s)
    case Builder =>
      if s.state == Walking || s.state == Shrugging then SkillResult(true, s.(state := Building, actionProgress := 0))
      else SkillResult(false, s)
    case Digger =>
      if s.state == Walking then SkillResult(true, s.(state := Digging, actionProgress := 0))
      else SkillResult(false, s)
    case Walker =>
      if s.state != Falling then SkillResult(true, s.(state := Walking, actionProgress := 0, countdown := None))
      else SkillResult(false, s)
    case Basher =>
      if s.state == Walking then SkillResult(true, s.(state := Bashing, actionProgress := 0))
      else SkillResult(false, s)
    case Miner =>
      if s.state == Walking then SkillResult(true, s.(state := Mining, actionProgress := 0))
      else SkillResult(false, s)
  }
}

=== FILE: engine_props.dfy ===
/** Properties of the per-agent state machine: the invariant every agent
    keeps, the priority of exit and fuse over the state handlers, and the
    observable effect of each handler and of skill assignment. */
module EngineProps {
  import opened Types
  import opened Terrain
  import opened Engine

  /** What holds of every agent the game ever creates: never both exited and
      dead, a non-negative fall distance, a live agent's fuse still burning,
      and progress counters bounded in the timed states that time out. */
  predicate Inv(s: Slemming) {
    && !(s.isDead && s.isExited)
    && s.fallDistance >= 0.0
    && (!Terminal(s) && s.countdown.Some? ==> s.countdown.value > 0.0)
    && (s.state == Building ==> s.actionProgress < BuildLimit + BrickInterval)
    && (s.state == Shrugging ==> s.actionProgress <= ShrugTicks)
    && (s.state == Bashing || s.state == Mining ==> s.actionProgress <= ToolTimeout)
  }

  lemma NewSlemmingInv(id: nat, x: real, y: real)
    ensures Inv(NewSlemming(id, x, y))
  {
  }

  lemma HandlerPreservesInv(s: Slemming, env: Env, peers: seq<Slemming>, self: int)
    requires Inv(s) && !Terminal(s)
    requires s.countdown.Some? ==> s.countdown.value > 0.0
    ensures Inv(Dispatch(s, env, peers, self).agent)
  {
    var a := Dispatch(s, env, peers, self).agent;
    match s.state
    case Falling =>
    case Floating =>
    case Walking =>
    case Blocking =>
    case Building =>
    case Shrugging =>
    case Digging =>
    case Bashing =>
    case Mining =>
    case Climbing =>
  }

  /** One tick keeps the agent invariant. */
  lemma UpdatePreservesInv(s: Slemming, env: Env, peers: seq<Slemming>, self: int)
    requires Inv(s)
    ensures Inv(Update(s, env, peers, self).agent)
  {
    if RunsHandler(s, env) {
      HandlerPreservesInv(BurnFuse(s), env, peers, self);
    }
  }

  /** Skill assignment keeps the agent invariant. */
  lemma ApplySkillPreservesInv(s: Slemming, k: SkillType)
    requires Inv(s)
    ensures Inv(ApplySkill(s, k).agent)
  {
  }

  /** A live agent in the exit box that is not falling leaves: only the
      exit flag changes and no terrain edit is requested, even when its fuse
      would burn out this tick. A falling agent is never let out. */
  lemma ExitRule(s: Slemming, env: Env, peers: seq<Slemming>, self: int)
    requires !Terminal(s)
    ensures Exits(s, env) ==> Update(s, env, peers, self) == Step(s.(isExited := true), [])
    ensures s.state == Falling ==> !Update(s, env, peers, self).agent.isExited
  {
  }

  /** A burning fuse loses one tick; when it reaches zero the agent carves a
      crater of radius 25 where it stands and dies without running its
      state handler. */
  lemma FuseRule(s: Slemming, env: Env, peers: seq<Slemming>, self: int)
    requires !Terminal(s) && !Exits(s, env) && s.countdown.Some?
    ensures var r := Update(s, env, peers, self);
      && r.agent.countdown == Some(s.countdown.value - FuseTick)
      && (FuseBurnsOut(s) ==>
            r.agent == s.(countdown := Some(s.countdown.value - FuseTick), isDead := true)
            && r.edits == [Edit(s.x, s.y, 25.0, true)])
  {
  }
  /** Landing: a falling or floating agent whose probes meet ground dies iff
      it fell more than 60 pixels without floating, and then nothing else
      about it changes; otherwise it walks, its fall distance is reset, and
      it has been lifted straight up out of the ground (or to the top edge).
      Either way only the fuse burns besides, and no edit is requested. */
  lemma LandingRule(s: Slemming, env: Env, peers: seq<Slemming>, self: int)
    requires RunsHandler(s, env) && (s.state == Falling || s.state == Floating)
    requires GroundAt(env, s.x, s.y + FallSpeed(s))
    ensures var n := SnapDistance(env, s.x, s.y, 0);
      && Update(s, env, peers, self) ==
           Step(if s.fallDistance > MaxFallDistance && s.state == Falling then BurnFuse(s).(isDead := true)
                else BurnFuse(s).(state := Walking, fallDistance := 0.0, y := Raised(s.y, n)), [])
      && (forall j: nat :: j < n ==> Solid(env, s.x, Raised(s.y, j)) && Raised(s.y, j) > 0.0)
      && (!Solid(env, s.x, Raised(s.y, n)) || Raised(s.y, n) <= 0.0)
  {
  }

  /** Free fall: with no ground below, the agent drops 2 pixels (1 when
      floating), its fall distance grows by the same amount, and it dies
      exactly when it has dropped below the bottom of the world. It keeps
      its state, column and direction, and requests no edit. */
  lemma FreeFallRule(s: Slemming, env: Env, peers: seq<Slemming>, self: int)
    requires RunsHandler(s, env) && (s.state == Falling || s.state == Floating)
    requires !GroundAt(env, s.x, s.y + FallSpeed(s))
    ensures var d := if s.state == Floating then 1.0 else 2.0;
      Update(s, env, peers, self) ==
        Step(BurnFuse(s).(y := s.y + d, fallDistance := s.fallDistance + d,
                          isDead := s.y + d > env.height as real), [])
  {
  }

  /** A floater never dies of a long fall: the only way it dies is by
      dropping below the bottom of the world. */
  lemma FloaterSurvivesLanding(s: Slemming, env: Env, peers: seq<Slemming>, self: int)
    requires RunsHandler(s, env) && s.state == Floating
    ensures Update(s, env, peers, self).agent.isDead ==> s.y + 1.0 > env.height as real
  {
  }

  /** The column a walker would step into holds solid ground all the way up
      to the maximum step height. */
  predicate WallAhead(env: Env, s: Slemming) {
    forall j: nat :: j <= MaxStep ==> Solid(env, s.x + s.direction as real * WalkSpeed, Raised(s.y, j))
  }

  /** Walking, first case: with no ground at any of the three probes two
      pixels below, the agent starts falling (floating with the floater
      skill) where it stands; nothing else changes. */
  lemma WalkOffEdge(s: Slemming, env: Env, peers: seq<Slemming>, self: int)
    requires RunsHandler(s, env) && s.state == Walking
    requires !GroundAt(env, s.x, s.y + 2.0)
    ensures Update(s, env, peers, self) ==
      Step(BurnFuse(s).(state := if Floater in s.skills then Floating else Falling), [])
  {
  }

  /** Walking, second case: a blocking agent anywhere else in the list
      (terminal or not) within the proximity box turns the walker round and
      pushes it 3 pixels in its new direction; nothing else changes. */
  lemma WalkIntoBlocker(s: Slemming, env: Env, peers: seq<Slemming>, self: int)
    requires RunsHandler(s, env) && s.state == Walking && GroundAt(env, s.x, s.y + 2.0)
    requires 0 <= self < |peers|
    requires exists j :: 0 <= j < |peers| && j != self && peers[j].state == Blocking &&
                         Abs(peers[j].x - s.x) < 8.0 && Abs(peers[j].y - s.y) < 5.0
    ensures var turned := Flip(s.direction);
      && turned as int == -(s.direction as int)
      && Update(s, env, peers, self) ==
           Step(BurnFuse(s).(direction := turned, x := s.x + turned as real * 3.0), [])
  {
  }

  /** The blocker scan skips only the scanning agent itself: whatever that
      agent looks like does not matter, and a blocking agent that has since
      died or exited still turns walkers round. */
  lemma BlockerScanSkipsOnlySelf(peers: seq<Slemming>, self: int, x: real, y: real, b: Slemming)
    requires 0 <= self < |peers|
    ensures BlockerNear(peers[self := b], self, x, y) <==> BlockerNear(peers, self, x, y)
    ensures forall j :: (0 <= j < |peers| && j != self && peers[j].state == Blocking && Terminal(peers[j]) &&
                         Abs(peers[j].x - x) < 8.0 && Abs(peers[j].y - y) < 5.0) ==> BlockerNear(peers, self, x, y)
  {
    if BlockerNear(peers, self, x, y) {
      var j :| 0 <= j < |peers| && j != self && peers[j].state == Blocking
               && Abs(peers[j].x - x) < 8.0 && Abs(peers[j].y - y) < 5.0;
      assert peers[self := b][j] == peers[j];
    }
    if BlockerNear(peers[self := b], self, x, y) {
      var j :| 0 <= j < |peers| && j != self && peers[self := b][j].state == Blocking
               && Abs(peers[self := b][j].x - x) < 8.0 && Abs(peers[self := b][j].y - y) < 5.0;
      assert peers[self := b][j] == peers[j];
    }
  }

  /** Walking, wall case: when the step ahead is higher than 6 pixels a
      climber starts climbing and anyone else turns round; neither moves
      and nothing else changes. */
  lemma WalkIntoWall(s: Slemming, env: Env, peers: seq<Slemming>, self: int)
    requires RunsHandler(s, env) && s.state == Walking && GroundAt(env, s.x, s.y + 2.0)
    requires !BlockerNear(peers, self, s.x, s.y)
    requires WallAhead(env, s)
    ensures Update(s, env, peers, self) ==
      Step(if Climber in s.skills then BurnFuse(s).(state := Climbing)
           else BurnFuse(s).(direction := Flip(s.direction)), [])
  {
  }

  /** Walking, open case: otherwise the walker advances by the walk speed,
      rises to the first empty height of the column ahead (at most 6 pixels
      up), and then drops 1 pixel exactly when the pixel below is empty;
      nothing else changes. */
  lemma WalkForward(s: Slemming, env: Env, peers: seq<Slemming>, self: int)
    requires RunsHandler(s, env) && s.state == Walking && GroundAt(env, s.x, s.y + 2.0)
    requires !BlockerNear(peers, self, s.x, s.y)
    requires !WallAhead(env, s)
    ensures var nextX := s.x + s.direction as real * WalkSpeed;
      && var n := StepHeight(env, nextX, s.y, 0);
      && n <= MaxStep
      && (forall j: nat :: j < n ==> Solid(env, nextX, Raised(s.y, j)))
      && !Solid(env, nextX, Raised(s.y, n))
      && Update(s, env, peers, self) ==
           Step(BurnFuse(s).(x := nextX,
                             y := if Solid(env, nextX, Raised(s.y, n) + 1.0) then Raised(s.y, n)
                                  else Raised(s.y, n) + 1.0), [])
  {
    NoWallMeansStep(env, s);
    assert Update(s, env, peers, self) == Step(HandleWalking(BurnFuse(s), env, peers, self), []);
  }

  /** Without a wall ahead the step in front is at most 6 pixels high. */
  lemma NoWallMeansStep(env: Env, s: Slemming)
    requires !WallAhead(env, s)
    ensures StepHeight(env, s.x + s.direction as real * WalkSpeed, s.y, 0) <= MaxStep
  {
  }

  /** The climbing handler's death branch is unreachable: above row 0 there
      is never a wall, so a climber that has risen past the top always takes
      the reached-the-top branch instead. */
  lemma ClimberNeverDies(s: Slemming, env: Env, peers: seq<Slemming>, self: int)
    requires RunsHandler(s, env) && s.state == Climbing
    ensures !Update(s, env, peers, self).agent.isDead
  {
  }

  /** Climbing: with no wall ahead at its height or one pixel up the climber
      steps onto the top, 1 pixel up and 4 pixels on, and walks; otherwise it
      climbs 1 pixel. Nothing else changes and no edit is requested. */
  lemma ClimbingRule(s: Slemming, env: Env, peers: seq<Slemming>, self: int)
    requires RunsHandler(s, env) && s.state == Climbing
    ensures var ahead := s.x + s.direction as real * 3.0;
      Update(s, env, peers, self) ==
        Step(if !Solid(env, ahead, s.y - 1.0) && !Solid(env, ahead, s.y)
             then BurnFuse(s).(y := s.y - 1.0, x := s.x + s.direction as real * 4.0, state := Walking)
             else BurnFuse(s).(y := s.y - 1.0), [])
  {
  }

  /** Blocking: a blocker stands still, changes nothing and requests no edit. */
  lemma BlockingRule(s: Slemming, env: Env, peers: seq<Slemming>, self: int)
    requires RunsHandler(s, env) && s.state == Blocking
    ensures Update(s, env, peers, self) == Step(BurnFuse(s), [])
  {
  }

  /** Building: every 20th tick the builder requests a fill of radius 5
      eight pixels ahead and moves 4 pixels on and 2 up; once that progress
      is past 240 it shrugs with progress reset. On other ticks only the
      progress advances. */
  lemma BuildingRule(s: Slemming, env: Env, peers: seq<Slemming>, self: int)
    requires RunsHandler(s, env) && s.state == Building
    ensures var p := s.actionProgress + 1;
      && var moved := BurnFuse(s).(x := s.x + s.direction as real * 4.0, y := s.y - 2.0);
      && Update(s, env, peers, self) ==
           if p % 20 != 0 then Step(BurnFuse(s).(actionProgress := p), [])
           else Step(if p > 240 then moved.(state := Shrugging, actionProgress := 0)
                     else moved.(actionProgress := p),
                     [Edit(s.x + s.direction as real * 8.0, s.y, 5.0, false)])
  {
  }

  /** Shrugging lasts until the progress passes 120, then the agent walks
      with progress reset; it never moves and requests no edit. */
  lemma ShruggingRule(s: Slemming, env: Env, peers: seq<Slemming>, self: int)
    requires RunsHandler(s, env) && s.state == Shrugging
    ensures var p := s.actionProgress + 1;
      Update(s, env, peers, self) ==
        Step(if p > 120 then BurnFuse(s).(state := Walking, actionProgress := 0)
             else BurnFuse(s).(actionProgress := p), [])
  {
  }

  /** Digging: once the ground five pixels below is gone the digger falls
      where it stands with progress reset; otherwise the progress advances
      and every 15th tick it carves a disk of radius 10 below itself and
      sinks 3 pixels. */
  lemma DiggingRule(s: Slemming, env: Env, peers: seq<Slemming>, self: int)
    requires RunsHandler(s, env) && s.state == Digging
    ensures var p := s.actionProgress + 1;
      Update(s, env, peers, self) ==
        if !Solid(env, s.x, s.y + 5.0) then Step(BurnFuse(s).(state := Falling, actionProgress := 0), [])
        else if p % 15 == 0 then Step(BurnFuse(s).(actionProgress := p, y := s.y + 3.0), [Edit(s.x, s.y + 4.0, 10.0, true)])
        else Step(BurnFuse(s).(actionProgress := p), [])
  {
  }

  /** Bashing and mining time out: once the progress passes 600 the agent
      walks again, and its progress is not reset. */
  lemma ToolTimeoutRule(s: Slemming, env: Env, peers: seq<Slemming>, self: int)
    requires RunsHandler(s, env) && (s.state == Bashing || s.state == Mining)
    ensures var a := Update(s, env, peers, self).agent;
      && a.actionProgress == s.actionProgress + 1
      && (s.actionProgress + 1 > 600 ==> a.state == Walking)
      && (s.state == Mining ==> (a.state == Walking <==> s.actionProgress + 1 > 600))
  {
  }

  /** Bashing: the progress advances every tick. Every 10th tick the basher
      checks the way ahead: into air it stops and walks, into ground it
      carves a disk of radius 12 ahead and moves 2 pixels. On the other ticks
      it requests nothing and stays put. While it meets ground it keeps
      bashing exactly as long as its progress is at most 600. */
  lemma BashingRule(s: Slemming, env: Env, peers: seq<Slemming>, self: int)
    requires RunsHandler(s, env) && s.state == Bashing
    ensures var p := s.actionProgress + 1;
      && var ahead := s.x + s.direction as real * 6.0;
      && var kept := if p <= 600 then Bashing else Walking;
      && Update(s, env, peers, self) ==
           if p % 10 != 0 then Step(BurnFuse(s).(actionProgress := p, state := kept), [])
           else if !Solid(env, ahead, s.y) then Step(BurnFuse(s).(actionProgress := p, state := Walking), [])
           else Step(BurnFuse(s).(actionProgress := p, x := s.x + s.direction as real * 2.0, state := kept),
                     [Edit(ahead, s.y - 2.0, 12.0, true)])
  {
  }

  /** Mining: every 12th tick the miner carves a disk of radius 12 six
      pixels ahead and four down, and moves 2 pixels on and 1 down; on
      other ticks it stays put and requests nothing. The progress advances
      every tick and the miner keeps mining while it is at most 600. */
  lemma MiningRule(s: Slemming, env: Env, peers: seq<Slemming>, self: int)
    requires RunsHandler(s, env) && s.state == Mining
    ensures var p := s.actionProgress + 1;
      && var kept := if p <= 600 then Mining else Walking;
      && Update(s, env, peers, self) ==
           if p % 12 != 0 then Step(BurnFuse(s).(actionProgress := p, state := kept), [])
           else Step(BurnFuse(s).(actionProgress := p, x := s.x + s.direction as real * 2.0,
                                  y := s.y + 1.0, state := kept),
                     [Edit(s.x + s.direction as real * 6.0, s.y + 4.0, 12.0, true)])
  {
  }

  /** Applying a skill that took effect a second time changes nothing more:
      traits are a set, the walker reset is idempotent, and every other skill
      is rejected because the agent is no longer in the state it requires. */
  lemma ApplySkillSettles(s: Slemming, k: SkillType)
    requires ApplySkill(s, k).applied
    ensures var a := ApplySkill(s, k).agent;
      && ApplySkill(a, k).agent == a
      && (ApplySkill(a, k).applied <==> k == Climber || k == Floater || k == Walker)
  {
  }

  /** A stretch of ticks: the agent at its end, the edits requested on the
      way, and how many ticks it took. */
  datatype Run = Run(agent: Slemming, edits: seq<Edit>, ticks: nat)

  /** Runs the building handler until the agent stops building. */
  function FinishBuild(s: Slemming): (r: Run)
    requires s.state == Building && s.actionProgress < BuildLimit + BrickInterval
    decreases BuildLimit + BrickInterval - s.actionProgress
  {
    var st := HandleBuilding(s);
    if st.agent.state != Building then Run(st.agent, st.edits, 1)
    else
      var rest := FinishBuild(st.agent);
      Run(rest.agent, st.edits + rest.edits, rest.ticks + 1)
  }

  /** The signed horizontal displacement of `n` pixels in direction `d`. */
  function Ahead(d: Direction, n: int): (dx: real) {
    if d == 1 then n as real else -(n as real)
  }

  /** Bricks still to come for a builder whose progress is `p`. */
  function BricksLeft(p: nat): (k: int) {
    13 - p / 20
  }

  /** One more tick adds a brick exactly when it completes a multiple of 20. */
  lemma BrickCount(q: nat)
    ensures BricksLeft(q) == BricksLeft(q + 1) + (if (q + 1) % 20 == 0 then 1 else 0)
  {
  }

  /** One tick of building: progress goes up by one until the 260th tick,
      which ends in shrugging; every 20th tick lays a radius-5 fill and moves
      the builder 4 pixels on and 2 up, and the other ticks neither edit nor
      move. */
  lemma BuildTick(s: Slemming)
    requires s.state == Building && s.actionProgress < BuildLimit + BrickInterval
    ensures var st := HandleBuilding(s);
      && var p := s.actionProgress + 1;
      && (p == 260 ==> st.agent.state == Shrugging && st.agent.actionProgress == 0)
      && (p < 260 ==> st.agent.state == Building && st.agent.actionProgress == p)
      && st.agent.direction == s.direction
      && |st.edits| == (if p % 20 == 0 then 1 else 0)
      && st.agent.x == s.x + Ahead(s.direction, if p % 20 == 0 then 4 else 0)
      && st.agent.y == s.y - (if p % 20 == 0 then 2.0 else 0.0)
      && forall i :: 0 <= i < |st.edits| ==> !st.edits[i].remove && st.edits[i].radius == 5.0
  {
  }

  /** Displacements in one direction add up. */
  lemma AheadAdds(d: Direction, m: int, n: int)
    ensures Ahead(d, m) + Ahead(d, n) == Ahead(d, m + n)
  {
  }

  /** The building run from any progress short of the limit: it ends
      shrugging after the bricks still due, each 4 pixels further and 2
      higher, all of them fills of radius 5. */
  lemma {:induction false} BuildFrom(s: Slemming)
    requires s.state == Building && s.actionProgress < BuildLimit + BrickInterval
    ensures var r := FinishBuild(s);
      && var b := BricksLeft(s.actionProgress);
      && r.agent.state == Shrugging && r.agent.actionProgress == 0
      && r.ticks == 260 - s.actionProgress
      && |r.edits| == b
      && r.agent.x == s.x + Ahead(s.direction, 4 * b)
      && r.agent.y == s.y - (2 * b) as real
      && r.agent.direction == s.direction
      && forall i :: 0 <= i < |r.edits| ==> !r.edits[i].remove && r.edits[i].radius == 5.0
    decreases BuildLimit + BrickInterval - s.actionProgress
  {
    var p := s.actionProgress + 1;
    var st := HandleBuilding(s);
    var a := st.agent;
    BuildTick(s);
    BrickCount(s.actionProgress);
    if p < 260 {
      BuildFrom(a);
      var rest := FinishBuild(a);
      assert FinishBuild(s) == Run(rest.agent, st.edits + rest.edits, rest.ticks + 1);
      AheadAdds(s.direction, if p % 20 == 0 then 4 else 0, 4 * BricksLeft(p));
    }
  }

  /** A builder that is left alone lays 13 bricks, one every 20 ticks, and
      after 260 ticks is shrugging, 26 pixels higher and 52 pixels further on. */
  lemma BuilderLaysThirteenBricks(s: Slemming)
    requires s.state == Building && s.actionProgress == 0
    ensures var r := FinishBuild(s);
      && r.agent.state == Shrugging && r.ticks == 260 && |r.edits| == 13
      && r.agent.x == s.x + s.direction as real * 52.0 && r.agent.y == s.y - 26.0
  {
    BuildFrom(s);
  }
}

=== FILE: game_canvas.dfy ===
/** The simulation tick driver of the canvas component: spawning at the
    level's cadence, the sweep that updates every live agent once per tick in
    creation order, the frame that runs several ticks against one terrain
    snapshot, and the click that assigns the armed skill. The counters the
    component reports through callbacks (released, saved, dead, skill used)
    are applied directly to the HUD state it carries. */
module GameCanvas {
  import opened Types
  import opened Terrain
  import opened Engine
  import App

  /** The canvas component's simulation state: the agent list in creation
      order, the live terrain, how many agents have been spawned, the ticks
      since the last spawn, and the HUD state the callbacks update. */
  datatype Sim = Sim(agents: seq<Slemming>, terrain: Grid, spawnCount: nat, sinceSpawn: nat, gs: GameState)

  /** The state when a level is entered: the level's terrain, no agents, and
      the spawn counters cleared. */
  function EnterLevel(terrain: Grid, gs: GameState): (sim: Sim)
    ensures sim.agents == [] && sim.spawnCount == 0 && sim.sinceSpawn == 0
    ensures sim.terrain == terrain && sim.gs == gs
  {
    Sim([], terrain, 0, 0, gs)
  }

  /** What every agent's update reads during one frame. */
  function FrameEnv(snapshot: Grid, level: Level): (env: Env) {
    Env(snapshot, GameWidth, GameHeight, level.exitPos)
  }

  /** Ticks between spawns for a release rate: three quarters of
      (105 - rate), but never fewer than 10. */
  function SpawnDelay(rate: int): (d: real)
    ensures d >= 10.0 && d >= ((105 - rate) * 12) as real / 16.0
    ensures d == 10.0 || d == ((105 - rate) * 12) as real / 16.0
  {
    var frames := ((105 - rate) * 12) as real / 16.0;
    if frames > 10.0 then frames else 10.0
  }

  /** A spawn happens this tick: quota left, and the tick counter (after
      this tick's increment) has passed the delay. */
  predicate SpawnDue(sim: Sim, level: Level) {
    sim.spawnCount < level.totalSlemmings && (sim.sinceSpawn + 1) as real > SpawnDelay(sim.gs.releaseRate)
  }

  /** The spawn half of a tick: count the tick and, when due, append a new
      agent ten pixels above the spawn point and restart the count. */
  function SpawnStep(sim: Sim, level: Level): (r: Sim)
    ensures r.terrain == sim.terrain
    ensures !SpawnDue(sim, level) ==> r == sim.(sinceSpawn := sim.sinceSpawn + 1)
    ensures SpawnDue(sim, level) ==>
      && |r.agents| == |sim.agents| + 1 && r.agents[..|sim.agents|] == sim.agents
      && r.agents[|sim.agents|] == NewSlemming(sim.spawnCount, level.spawnPos.x, level.spawnPos.y - 10.0)
      && r.spawnCount == sim.spawnCount + 1 && r.sinceSpawn == 0
      && r.gs == sim.gs.(released := sim.spawnCount + 1)
    ensures SpawnDue(sim, level) ==> sim.sinceSpawn >= 10 && sim.spawnCount < level.totalSlemmings
  {
    var count := sim.sinceSpawn + 1;
    if SpawnDue(sim, level) then
      var born := NewSlemming(sim.spawnCount, level.spawnPos.x, level.spawnPos.y - 10.0);
      Sim(sim.agents + [born], sim.terrain, sim.spawnCount + 1, 0, App.OnReleased(sim.gs, sim.spawnCount + 1))
    else sim.(sinceSpawn := count)
  }

  /** Visits agent `i` of the sweep: a terminal agent is skipped; a live one
      is updated against the frame's snapshot and the live agent list, its
      edits go to the live terrain, and if it has just exited (or else just
      died) that is reported once. */
  function Visit(sim: Sim, env: Env, i: nat): (r: Sim)
    requires i < |sim.agents|
    ensures |r.agents| == |sim.agents|
    ensures forall j :: 0 <= j < |sim.agents| && j != i ==> r.agents[j] == sim.agents[j]
    ensures Terminal(sim.agents[i]) ==> r == sim
    ensures !Terminal(sim.agents[i]) ==> r.agents[i] == Update(sim.agents[i], env, sim.agents, i).agent
    ensures r.spawnCount == sim.spawnCount && r.sinceSpawn == sim.sinceSpawn
    ensures r.gs.(saved := sim.gs.saved, dead := sim.gs.dead) == sim.gs
    ensures !Terminal(sim.agents[i]) ==>
      r.terrain == ApplyAll(sim.terrain, Update(sim.agents[i], env, sim.agents, i).edits)
  {
    var a := sim.agents[i];
    if a.isDead || a.isExited then sim
    else
      var st := Update(a, env, sim.agents, i);
      var b := st.agent;
      var gs := if b.isExited then App.OnExited(sim.gs) else if b.isDead then App.OnDied(sim.gs) else sim.gs;
      Sim(sim.agents[i := b], ApplyAll(sim.terrain, st.edits), sim.spawnCount, sim.sinceSpawn, gs)
  }

  /** The edits the live agents from index `i` on request during a sweep,
      in sweep order, given the list before the sweep and the list after it:
      agent `j` is updated against the agents before it as they are after
      the sweep and the rest as they were before. */
  function SweepEdits(before: seq<Slemming>, after: seq<Slemming>, env: Env, i: nat): (edits: seq<Edit>)
    requires |before| == |after| && i <= |before|
    decreases |before| - i
  {
    if i == |before| then []
    else
      (if Terminal(before[i]) then [] else Update(before[i], env, after[..i] + before[i..], i).edits)
        + SweepEdits(before, after, env, i + 1)
  }

  /** The edits of a sweep depend on the list before it only from index
      `i` on. */
  lemma {:induction false} SweepEditsTail(b1: seq<Slemming>, b2: seq<Slemming>, after: seq<Slemming>, env: Env, i: nat)
    requires |b1| == |b2| == |after| && i <= |b1| && b1[i..] == b2[i..]
    ensures SweepEdits(b1, after, env, i) == SweepEdits(b2, after, env, i)
    decreases |b1| - i
  {
    if i < |b1| {
      assert b1[i] == b1[i..][0] == b2[i];
      assert b1[i..] == b2[i..];
      assert b1[i + 1..] == b1[i..][1..];
      assert b2[i + 1..] == b2[i..][1..];
      SweepEditsTail(b1, b2, after, env, i + 1);
    }
  }

  /** One step of the sweep's list bookkeeping: after visiting agent `i`
      and sweeping on from `i + 1`, the agents before `i` are as they were,
      and the visit changed no agent after `i`. */
  lemma SweepPrefix(sim: Sim, env: Env, i: nat, next: Sim, r: Sim)
    requires i < |sim.agents| && next == Visit(sim, env, i) && |r.agents| == |sim.agents|
    requires forall j :: 0 <= j < i + 1 ==> r.agents[j] == next.agents[j]
    ensures r.agents[..i] == sim.agents[..i]
    ensures r.agents[..i] + sim.agents[i..] == sim.agents
    ensures forall j :: i < j < |sim.agents| ==> next.agents[j..] == sim.agents[j..]
  {
    assert r.agents[..i] == sim.agents[..i];
  }

  /** One step of the sweep's terrain bookkeeping: visiting agent `i` and
      then sweeping on from `i + 1` applies agent `i`'s edits before the
      rest. */
  lemma SweepTerrainStep(sim: Sim, env: Env, i: nat, next: Sim, r: Sim)
    requires i < |sim.agents| && next == Visit(sim, env, i)
    requires |r.agents| == |sim.agents| && r.agents[..i] == sim.agents[..i]
    requires r.terrain == ApplyAll(next.terrain, SweepEdits(next.agents, r.agents, env, i + 1))
    ensures r.terrain == ApplyAll(sim.terrain, SweepEdits(sim.agents, r.agents, env, i))
  {
    var mine := if Terminal(sim.agents[i]) then [] else Update(sim.agents[i], env, sim.agents, i).edits;
    assert r.agents[..i] + sim.agents[i..] == sim.agents;
    assert next.terrain == ApplyAll(sim.terrain, mine);
    assert next.agents[i + 1..] == sim.agents[i + 1..];
    SweepEditsTail(next.agents, sim.agents, r.agents, env, i + 1);
    ApplyAllConcat(sim.terrain, mine, SweepEdits(sim.agents, r.agents, env, i + 1));
  }

  /** The sweep from index `i` on, in list order. Each live agent `j` sees
      the agents before it as already updated this tick and the ones after
      it (itself included) as they were. */
  function Sweep(sim: Sim, env: Env, i: nat): (r: Sim)
    requires i <= |sim.agents|
    ensures |r.agents| == |sim.agents|
    ensures r.spawnCount == sim.spawnCount && r.sinceSpawn == sim.sinceSpawn
    ensures r.gs.(saved := sim.gs.saved, dead := sim.gs.dead) == sim.gs
    ensures forall j :: 0 <= j < i ==> r.agents[j] == sim.agents[j]
    ensures forall j :: i <= j < |sim.agents| && Terminal(sim.agents[j]) ==> r.agents[j] == sim.agents[j]
    ensures forall j :: i <= j < |sim.agents| && !Terminal(sim.agents[j]) ==>
      r.agents[j] == Update(sim.agents[j], env, r.agents[..j] + sim.agents[j..], j).agent
    ensures r.terrain == ApplyAll(sim.terrain, SweepEdits(sim.agents, r.agents, env, i))
    decreases |sim.agents| - i
  {
    if i == |sim.agents| then sim
    else
      var next := Visit(sim, env, i);
      var r := Sweep(next, env, i + 1);
      SweepPrefix(sim, env, i, next, r);
      SweepTerrainStep(sim, env, i, next, r);
      r
  }

  /** A sweep from a live index is a visit followed by the sweep from the
      next index, which leaves the agents before the index as they were. */
  lemma SweepUnfolds(sim: Sim, env: Env, i: nat)
    requires i < |sim.agents|
    ensures Sweep(sim, env, i) == Sweep(Visit(sim, env, i), env, i + 1)
    ensures Sweep(sim, env, i).agents[..i] == sim.agents[..i]
  {
  }

  /** One tick: spawn if due, then sweep every agent. A spawned agent is
      appended, counted as released and updated in the same tick; an agent
      already exited or dead is left as it is; the live terrain receives the
      live agents' edits in list order. */
  function Tick(sim: Sim, level: Level, snapshot: Grid): (r: Sim)
    ensures SpawnDue(sim, level) ==>
      && |r.agents| == |sim.agents| + 1 && r.spawnCount == sim.spawnCount + 1
      && r.sinceSpawn == 0 && r.gs.released == sim.spawnCount + 1
    ensures SpawnDue(sim, level) ==>
      var born := NewSlemming(sim.spawnCount, level.spawnPos.x, level.spawnPos.y - 10.0);
      r.agents[|sim.agents|]
        == Update(born, FrameEnv(snapshot, level), r.agents[..|sim.agents|] + [born], |sim.agents|).agent
    ensures !SpawnDue(sim, level) ==>
      && |r.agents| == |sim.agents| && r.spawnCount == sim.spawnCount
      && r.sinceSpawn == sim.sinceSpawn + 1 && r.gs.released == sim.gs.released
    ensures forall j :: 0 <= j < |sim.agents| && Terminal(sim.agents[j]) ==> r.agents[j] == sim.agents[j]
    ensures r.gs.(saved := sim.gs.saved, dead := sim.gs.dead, released := sim.gs.released) == sim.gs
    ensures r.terrain
      == ApplyAll(sim.terrain, SweepEdits(SpawnStep(sim, level).agents, r.agents, FrameEnv(snapshot, level), 0))
  {
    var s := SpawnStep(sim, level);
    var r := Sweep(s, FrameEnv(snapshot, level), 0);
    assert forall j :: 0 <= j < |sim.agents| ==> s.agents[j] == sim.agents[j];
    assert SpawnDue(sim, level) ==> s.agents[|sim.agents|..] == [s.agents[|sim.agents|]];
    r
  }

  /** Consecutive ticks, the k-th reading the k-th snapshot. Every spawn
      appends exactly one agent, spawns stop at the level's total, and only
      the released, saved and dead counters of the HUD state change. */
  function Ticks(sim: Sim, level: Level, snapshots: seq<Grid>): (r: Sim)
    ensures r.spawnCount >= sim.spawnCount
    ensures |r.agents| - |sim.agents| == r.spawnCount - sim.spawnCount
    ensures r.spawnCount > sim.spawnCount ==> r.spawnCount <= level.totalSlemmings
    ensures r.gs.(saved := sim.gs.saved, dead := sim.gs.dead, released := sim.gs.released) == sim.gs
    decreases |snapshots|
  {
    if |snapshots| == 0 then sim else Ticks(Tick(sim, level, snapshots[0]), level, snapshots[1..])
  }

  /** Ticks per frame for a speed setting: a speed of 0 counts as 1 and a
      negative speed runs no tick. */
  function TickCount(speed: int): (n: nat)
    ensures speed >= 1 ==> n == speed
    ensures speed < 1 ==> n == (if speed == 0 then 1 else 0)
  {
    if speed == 0 then 1 else if speed < 0 then 0 else speed
  }

  /** One animation frame. Paused, it does nothing. Otherwise the terrain
      is sampled once and every tick of the frame reads that snapshot, while
      the edits requested during the frame go to the live terrain. */
  function Frame(sim: Sim, level: Level, speed: int): (r: Sim)
    ensures sim.gs.isPaused || TickCount(speed) == 0 ==> r == sim
    ensures r.spawnCount >= sim.spawnCount
    ensures |r.agents| - |sim.agents| == r.spawnCount - sim.spawnCount
    ensures r.spawnCount > sim.spawnCount ==> r.spawnCount <= level.totalSlemmings
    ensures r.gs.(saved := sim.gs.saved, dead := sim.gs.dead, released := sim.gs.released) == sim.gs
  {
    if sim.gs.isPaused then sim
    else Ticks(sim, level, seq(TickCount(speed), _ => sim.terrain))
  }

  /** An agent the mouse can pick: live and within 15 pixels on each axis. */
  predicate Targetable(s: Slemming, p: Point) {
    !s.isDead && !s.isExited && Abs(s.x - p.x) < 15.0 && Abs(s.y - p.y) < 15.0
  }

  /** The first targetable agent at or after index `from`. */
  function FindTarget(agents: seq<Slemming>, p: Point, from: nat): (r: Option<nat>)
    requires from <= |agents|
    ensures r.Some? ==> from <= r.value < |agents| && Targetable(agents[r.value], p)
    ensures r.Some? ==> forall k :: from <= k < r.value ==> !Targetable(agents[k], p)
    ensures r.None? ==> forall k :: from <= k < |agents| ==> !Targetable(agents[k], p)
    decreases |agents| - from
  {
    if from == |agents| then None
    else if Targetable(agents[from], p) then Some(from)
    else FindTarget(agents, p, from + 1)
  }

  /** The agent a click assigns to: none when no skill is armed or the
      mouse is off the canvas, else the first targetable agent. */
  function ClickTarget(sim: Sim, mouse: Option<Point>): (r: Option<nat>) {
    if sim.gs.activeSkill.None? || mouse.None? then None
    else FindTarget(sim.agents, mouse.value, 0)
  }

  /** A click: the armed skill is offered to the target, and the quota is
      charged exactly when the agent accepts it. The quota is not consulted. */
  function Click(sim: Sim, mouse: Option<Point>): (r: Sim)
    ensures r.(agents := sim.agents, gs := sim.gs) == sim
    ensures |r.agents| == |sim.agents|
    ensures ClickTarget(sim, mouse).None? ==> r == sim
    ensures ClickTarget(sim, mouse).Some? ==>
      var j := ClickTarget(sim, mouse).value;
      var k := sim.gs.activeSkill.value;
      && (forall i :: 0 <= i < |sim.agents| && i != j ==> r.agents[i] == sim.agents[i])
      && r.agents[j] == ApplySkill(sim.agents[j], k).agent
      && r.gs == (if ApplySkill(sim.agents[j], k).applied then App.SkillUsed(sim.gs, k) else sim.gs)
  {
    match ClickTarget(sim, mouse)
    case None => sim
    case Some(j) =>
      var k := sim.gs.activeSkill.value;
      var res := ApplySkill(sim.agents[j], k);
      if res.applied then sim.(agents := sim.agents[j := res.agent], gs := App.SkillUsed(sim.gs, k))
      else sim
  }

  /** The click with the quota check the skill bar implies: an armed skill
      whose button would be disabled is not offered to anyone. */
  function GuardedClick(sim: Sim, mouse: Option<Point>): (r: Sim)
    ensures sim.gs.activeSkill.Some? && App.SkillDisabled(sim.gs, sim.gs.activeSkill.value) ==> r == sim
    ensures sim.gs.activeSkill.Some? && !App.SkillDisabled(sim.gs, sim.gs.activeSkill.value) ==> r == Click(sim, mouse)
  {
    if sim.gs.activeSkill.Some? && App.SkillDisabled(sim.gs, sim.gs.activeSkill.value) then sim
    else Click(sim, mouse)
  }
}

=== FILE: terrain.dfy ===
/** The terrain store: an explicit occupancy grid, the point-sampling query
    the agents use, and the two edits agents request (carve a disk empty,
    fill a thin strip solid). */
module Terrain {
  import opened Types

  /** Occupancy grid in row-major order: `g[row][column]` is true when that
      pixel is solid. */
  type Grid = seq<seq<bool>>

  /** A grid with the dimensions of the playing field. */
  predicate WellFormed(g: Grid) {
    |g| == GameHeight && forall j :: 0 <= j < |g| ==> |g[j]| == GameWidth
  }

  /** Stored occupancy of pixel (ix, iy); a pixel outside the stored grid
      reads as empty, as an out-of-range read of the pixel buffer does. */
  predicate Cell(g: Grid, ix: int, iy: int) {
    0 <= iy < |g| && 0 <= ix < |g[iy]| && g[iy][ix]
  }

  /** Solidity of the world at a fractional point: open air left, right and
      above the field, always solid from `FloorRow` down, otherwise the
      stored pixel containing the point. */
  function IsSolid(g: Grid, width: int, x: real, y: real): (r: bool)
    ensures x.Floor < 0 || x.Floor >= width || y.Floor < 0 ==> !r
    ensures 0 <= x.Floor < width && y.Floor >= FloorRow ==> r
    ensures 0 <= x.Floor < width && 0 <= y.Floor < FloorRow ==> (r <==> Cell(g, x.Floor, y.Floor))
  {
    var ix := x.Floor;
    var iy := y.Floor;
    if ix < 0 || ix >= width || iy < 0 then false
    else if iy >= FloorRow then true
    else Cell(g, ix, iy)
  }

  /** A terrain-change request `(x, y, radius, remove)`: `remove` carves a
      disk of that radius empty, otherwise a strip `2*radius` wide and three
      pixels high is filled solid. */
  datatype Edit = Edit(x: real, y: real, radius: real, remove: bool)

  /** Whether pixel (i, j) lies inside the shape an edit paints. A pixel is
      covered when its centre is: inside the closed disk for a carve, inside
      the half-open rectangle [x-r, x+r) x [y-1, y+2) for a fill. */
  predicate Covers(e: Edit, i: int, j: int) {
    var cx := i as real + 0.5;
    var cy := j as real + 0.5;
    if e.remove then
      (cx - e.x) * (cx - e.x) + (cy - e.y) * (cy - e.y) <= e.radius * e.radius
    else
      e.x - e.radius <= cx < e.x + e.radius && e.y - 1.0 <= cy < e.y + 2.0
  }

  /** Applies one edit to the grid. */
  function Apply(g: Grid, e: Edit): (g': Grid)
    ensures |g'| == |g|
    ensures forall j :: 0 <= j < |g| ==> |g'[j]| == |g[j]|
    ensures forall j, i :: 0 <= j < |g| && 0 <= i < |g[j]| && Covers(e, i, j) ==> g'[j][i] == !e.remove
    ensures forall j, i :: 0 <= j < |g| && 0 <= i < |g[j]| && !Covers(e, i, j) ==> g'[j][i] == g[j][i]
  {
    seq(|g|, j requires 0 <= j < |g| =>
      seq(|g[j]|, i requires 0 <= i < |g[j]| =>
        if Covers(e, i, j) then !e.remove else g[j][i]))
  }

  /** Applies edits in the order they were requested. */
  function ApplyAll(g: Grid, es: seq<Edit>): (g': Grid)
    ensures |g'| == |g|
    ensures forall j :: 0 <= j < |g| ==> |g'[j]| == |g[j]|
    ensures WellFormed(g) ==> WellFormed(g')
    decreases |es|
  {
    if |es| == 0 then g else ApplyAll(Apply(g, es[0]), es[1..])
  }

  /** Applying two batches of edits one after the other is applying their
      concatenation. */
  lemma {:induction false} ApplyAllConcat(g: Grid, a: seq<Edit>, b: seq<Edit>)
    ensures ApplyAll(ApplyAll(g, a), b) == ApplyAll(g, a + b)
    decreases |a|
  {
    if |a| > 0 {
      assert (a + b)[0] == a[0] && (a + b)[1..] == a[1..] + b;
      ApplyAllConcat(Apply(g, a[0]), a[1..], b);
    } else {
      assert a + b == b;
    }
  }

  /** Sampling straight after an edit: inside the painted shape the sample
      reports the edit's value, outside it the sample is what it was, as
      long as the point lies above the catch-all floor. */
  lemma SampleAfterEdit(g: Grid, e: Edit, x: real, y: real)
    requires WellFormed(g)
    requires 0 <= x.Floor < GameWidth && 0 <= y.Floor < FloorRow
    ensures Covers(e, x.Floor, y.Floor) ==> IsSolid(Apply(g, e), GameWidth, x, y) == !e.remove
    ensures !Covers(e, x.Floor, y.Floor) ==> IsSolid(Apply(g, e), GameWidth, x, y) == IsSolid(g, GameWidth, x, y)
  {
  }

  /** Below the floor row an edit can never be observed: the sample stays solid. */
  lemma FloorSurvivesEdits(g: Grid, es: seq<Edit>, x: real, y: real)
    requires 0 <= x.Floor < GameWidth && y.Floor >= FloorRow
    ensures IsSolid(ApplyAll(g, es), GameWidth, x, y)
  {
  }

  /** A carve of radius r centred on a pixel centre clears exactly that pixel's
      closed disk: the pixel itself is always cleared, and a pixel farther
      than r along a row is untouched. */
  lemma CarveCentre(g: Grid, i: int, j: int, r: real)
    requires 0 <= j < |g| && 0 <= i < |g[j]| && r >= 0.0
    ensures !Apply(g, Edit(i as real + 0.5, j as real + 0.5, r, true))[j][i]
    ensures forall k :: 0 <= k < |g[j]| && (k - i) as real > r ==>
      Apply(g, Edit(i as real + 0.5, j as real + 0.5, r, true))[j][k] == g[j][k]
  {
    var e := Edit(i as real + 0.5, j as real + 0.5, r, true);
    assert Covers(e, i, j);
    forall k | 0 <= k < |g[j]| && (k - i) as real > r
      ensures !Covers(e, k, j)
    {
      var d := (k - i) as real;
      SquareGrows(r, d);
      assert (k as real + 0.5) - (i as real + 0.5) == d;
    }
  }

  /** Squaring is strictly increasing on the non-negative reals. */
  lemma SquareGrows(r: real, d: real)
    requires 0.0 <= r < d
    ensures r * r < d * d
  {
    calc {
      r * r;
    <= { assert r * (d - r) >= 0.0; }
      r * d;
    <  { assert d * (d - r) > 0.0; }
      d * d;
    }
  }

  /** A fill of radius r at an integer point paints exactly columns
      [x-r, x+r) of rows y-1, y and y+1. */
  lemma FillStrip(g: Grid, x: int, y: int, r: int, i: int, j: int)
    requires 0 <= j < |g| && 0 <= i < |g[j]|
    ensures Apply(g, Edit(x as real, y as real, r as real, false))[j][i] ==
      if x - r <= i < x + r && y - 1 <= j <= y + 1 then true else g[j][i]
  {
  }
}

=== FILE: types.dfy ===
/** Shared vocabulary of the game: the skill and state enumerations, points,
    the level descriptor, the HUD game state and the numeric constants. */
module Types {

  /** Size of the playing field in pixels. */
  const GameWidth: int := 640
  const GameHeight: int := 400

  /** A fall longer than this kills a non-floating slemming on landing. */
  const MaxFallDistance: real := 60.0

  /** Horizontal distance a walking slemming covers per tick. */
  const WalkSpeed: real := 0.55

  /** Every in-range column is solid from this row downwards (the catch-all floor). */
  const FloorRow: int := 398

  datatype Option<T> = None | Some(value: T)

  /** Skills the player can assign. `Walker` has a case in the engine's skill
      assignment (engine/Slemming.ts:298-307) but no member in the declared
      enumeration (types.ts:2-11); the skill bar offers one button per
      declared member (App.tsx:248), so no button arms it and the walker case
      is reachable only by calling the engine directly. */
  datatype SkillType = Climber | Floater | Bomber | Blocker | Builder | Basher | Miner | Digger | Walker

  /** Behaviour states of a slemming. `Shrugging` is used by the engine although
      the type declarations omit it; the declared but never assigned members
      (bomber countdown, dead, exited) are left out, since the terminal
      conditions are separate flags. */
  datatype SlemmingState =
    | Walking | Falling | Climbing | Floating | Blocking
    | Building | Bashing | Mining | Digging | Shrugging

  datatype Point = Point(x: real, y: real)

  /** The read-only level descriptor consumed by the simulation. A skill
      missing from `skills` has no quota entry at all. */
  datatype Level = Level(
    spawnRate: int,
    totalSlemmings: int,
    toSave: int,
    timeLimit: int,
    skills: map<SkillType, int>,
    spawnPos: Point,
    exitPos: Point)

  datatype Status = Menu | Playing | Won | Lost

  /** The HUD-level game state kept by the application shell. */
  datatype GameState = GameState(
    released: int,
    saved: int,
    dead: int,
    timeLeft: int,
    releaseRate: int,
    activeSkill: Option<SkillType>,
    skillsLeft: map<SkillType, int>,
    isPaused: bool,
    gameStatus: Status)

  function Abs(r: real): (a: real)
    ensures a >= 0.0 && (a == r || a == -r)
  {
    if r < 0.0 then -r else r
  }
}
